=== FILE: README.md ===
# ponysay listings in Dafny

A model of the `List` class of ponysay (`src/list.py`), the part of the
program that prints the available ponies and balloons:

- `__columnise` lays out `(plain, formatted)` pairs in a terminal-width
  grid. It sorts the pairs by plain name and makes every cell as wide as the
  widest name plus a two-column gutter. It then computes the numbers of
  columns and rows, fills the columns top to bottom, and "smooths" the
  columns by moving the tails of earlier columns onto the fronts of later
  ones. Finally it prints the rows with the gutter of each row cut off.
- `simplelist` prints, for each pony directory, a bold header and the grid of
  the `.pony` file names, quoters in bold.
- `linklist` does the same, but groups symbolic links under the pony they
  point at and lists `name (alias1 alias2)` labels.
- `onelist` prints every pony name once per line, sorted, without formatting.
- `balloonlist` prints the grid of the `.say` (or `.think`) balloon names.

The modules follow the source:

| module | file | what it holds |
|---|---|---|
| `Results` | `results.dfy` | `Option`, `Result` and the three errors the listings can raise |
| `Strings` | `strings.dfy` | Python `str` ordering, negative slices, `endswith`, `rindex`, `replace`, `join`, and dict/set insertion order |
| `Sorting` | `sorting.dfy` | `list.sort(key=...)` as a stable insertion sort |
| `Fill` | `fill.dfy` | row count, column-major fill, smoothing, and rows to lines |
| `Columnise` | `columnise.dfy` | `__columnise` end to end |
| `Aliases` | `aliases.dfy` | the pony map and the labels of `linklist` |
| `Listing` | `listing.dfy` | the four listing modes |

Python raises where the model returns a `Result`:

- `MaxOfEmpty`: `max([])` on an empty list of widths (line 35).
- `ZeroColumns`: a division by zero when a name is wider than the terminal,
  because then `cols == 0` (line 39).
- `UnboundSelf`: the `NameError` of `balloonlist` (line 235).

A listing returns the lines it printed, together with the error that ended
it, if any. For example, the directory header is printed before the layout
fails.

The display width `UCS.dispLen` is a parameter `dl: string -> nat`. Where a
property needs more, the lemma states it as a hypothesis. The label-width
lemmas assume that the width adds up over concatenation and that a space and
each bracket take one column. The fit lemmas assume less
(`Columnise.PadsLikePlain`): a formatted name padded with `k` spaces is `k`
columns wider than its plain name, the width adds up across a cut right
after such a padded name, and the empty string takes no columns. A width
that skips escape sequences meets these even for bold names, since each
name closes the bold sequence it opens. The terminal width is a
`nat` parameter. The `ucsiser` callbacks are optional function parameters.

The code does not clamp the number of columns to 1. A name wider than the
terminal gives `cols == 0` and a division by zero at line 39. The model
follows the code (`ZeroColumns`) and does not clamp to one column.

## Model

| member | source | states |
|---|---|---|
| Strings.LastN | src/list.py:59 | `xs[-d:]`: the last `d` elements, or the whole list when it is shorter, and the whole list when `d == 0` |
| Strings.ButLastN | src/list.py:61 | `xs[:-d]`: all but the last `d` elements, empty when the list is shorter or when `d == 0` |
| Strings.SplitAtNegative | src/list.py:59-61 | `xs[:-d] + xs[-d:] == xs` for every `d`, so a tail moved by smoothing is exactly what its column loses |
| Strings.AfterLast | src/list.py:155-156 | the text after the last `/` is a `/`-free suffix that starts right after a `/` or at the start |
| Strings.AfterLastKeepsIff | src/list.py:155-156 | the target is left whole exactly when it contains no `/` |
| Strings.Distinct | src/list.py:163-182 | a dict's keys or a set's members filled from a list: no repeats, and the same members as the list |
| Strings.DistinctKeepsFirstOrder | src/list.py:163-182 | those keys come in the order of their first occurrence in the list |
| Strings.SameMembersArePermutations | src/list.py:246-247 | two repeat-free lists with the same members are permutations of each other |
| Sorting.SortBy | src/list.py:33 | the sorted list is ascending by key and a permutation of the input |
| Sorting.SortByIsStable | src/list.py:33 | the sort is stable: for every key, the elements with that key come out in the order they went in |
| Sorting.SortedIsUnique | src/list.py:33 | two ascending permutations of the same list are equal when the key identifies the element |
| Sorting.SortIgnoresInputOrder | src/list.py:33 | sorting two orderings of the same elements gives one list |
| Fill.RowCountIsCeiling | src/list.py:38-39 | `rows` is the ceiling of `n / cols`: `rows*cols >= n`, `(rows-1)*cols < n`, `0 <= rows*cols - n < cols`, and `rows <= n` |
| Fill.FillColumns | src/list.py:44-51 | the fill loop computes the reference column-major fill (column `c` holds cells `c*rows` up to `(c+1)*rows`, capped at `n`), and no column index it uses leaves `0..cols-1` |
| Fill.NaiveFillKeepsCells | src/list.py:44-51 | the filled columns, concatenated, are the cells in order |
| Fill.NaiveFillPlacement | src/list.py:44-51 | cell `j` lands in column `j / rows` at row `j % rows`, and that column exists |
| Fill.NaiveFillShape | src/list.py:44-51 | no filled column exceeds `rows`, a non-empty column follows a full one, and column 0 is full when there are at least `rows` cells |
| Fill.MoveTail | src/list.py:59-61 | one smoothing step keeps the number of columns and their concatenation, and changes only two columns |
| Fill.SmoothFrom | src/list.py:56-62 | the smoothing loop keeps the number of columns and their concatenation, leaves the columns it does not reach unchanged, and keeps every column within `rows` when it starts with every column within `rows` and column `c` still fitting once the first pass has filled it |
| Fill.Smoothing | src/list.py:54-62 | smoothing keeps the cells in order and column 0 whole, and changes nothing unless `diff > 2` and `rows > 1` |
| Fill.SmoothingStaysWithinRows | src/list.py:54-70 | after smoothing, no column holds more than `rows` cells, so the transpose drops no cell |
| Fill.SmoothingCanLeaveGaps | src/list.py:53-62 | 7 cells in 6 columns smooth to column lengths 2, 1, 1, 2, 1, 0, so the last column is still empty and the last row is not simply partially empty; the unpadded transpose then prints row 1 as cells 1 and 5 side by side, cell 5 coming from the fourth column. The model keeps this behaviour as written; it is recorded here, not claimed under Findings |
| Fill.LinesShowEveryCell | src/list.py:65-70 | the rows show each cell exactly once, each cell on the row of its index in its column |
| Fill.LineDropsOnlyGutter | src/list.py:73 | when every cell ends in two spaces, cutting two characters from a row removes only the last cell's gutter |
| Columnise.MaxOf | src/list.py:35 | the maximum is one of the widths and no width exceeds it |
| Columnise.Widths | src/list.py:34 | one display width per item, in order |
| Columnise.CellsArePadded | src/list.py:46 | each cell is the formatted name followed by `width - dispLen(plain)` spaces, at least two |
| Columnise.CellIsWidthWide | src/list.py:46 | a padded cell takes exactly `width` columns when a padded name is as many columns wider than its plain name as it has spaces |
| Columnise.TrimmedRowWidth | src/list.py:46-72 | a row of padded cells with the last two characters cut takes `cells * width - 2` columns |
| Columnise.CellWidth | src/list.py:34-35 | the cell width leaves every plain name at least the two-column gutter and is reached by some name |
| Columnise.NoColumnIffTooWide | src/list.py:31-38 | `(termwidth + 2) // width` is zero exactly when some plain name is wider than the terminal |
| Columnise.TooWideIgnoresOrder | src/list.py:35-38 | whether some name is too wide does not depend on the order of the items |
| Columnise.BuildGridIsGood | src/list.py:34-62 | the grid built from sorted items meets the layout's promises: width, column and row counts, cells in order, no column longer than `rows`, and column 0 full |
| Columnise.LayoutSorted | src/list.py:35-62 | on sorted items, the layout fails with a division by zero exactly when a name is wider than the terminal, and otherwise is a good grid |
| Columnise.Layout | src/list.py:29-62 | the layout fails on an empty list (`max`) or when a name is too wide (division by zero), exactly then, and otherwise is a good grid of the sorted items |
| Columnise.GoodGridShowsEveryCell | src/list.py:64-73 | the printed rows of a good grid show every cell once, each minus only its gutter |
| Columnise.ColumniseShowsEveryItem | src/list.py:64-74 | the output has one line per row and a trailing blank line, each line is its row's cells less the gutter, and all items are shown |
| Columnise.GoodGridFitsTerminal | src/list.py:30-73 | every printed row of a good grid is at most the terminal width: a row holds at most `cols` cells of `width` columns, `cols * width` is at most the width plus the gutter, and the last gutter is cut; this holds for bold and plain cells alike under `PadsLikePlain` |
| Columnise.LayoutFitsTerminal | src/list.py:30-74 | the rows of a successful layout and the blank line after them each fit the terminal |
| Columnise.ColumniseFitsTerminal | src/list.py:29-74 | every line `__columnise` prints fits the terminal, under `PadsLikePlain` |
| Columnise.ColumniseIgnoresOrder | src/list.py:29-74 | the printed grid does not depend on the order the items arrive in |
| Aliases.Target | src/list.py:154-156 | the key of a linked pair is a `/`-free suffix of the link without its last five characters, cut right after the last `/` when there is one |
| Aliases.TargetDropsPonySuffix | src/list.py:143 | a link `path.pony` is keyed by the last component of `path` |
| Aliases.TargetOfPonyFile | src/list.py:145-156 | a link to `dir/name.pony` is keyed by `name` |
| Aliases.StepKeepsValid | src/list.py:149-160 | each step of the grouping loop keeps the key order repeat-free and in step with the map, and adds only the pair's key |
| Aliases.GroupIsValid | src/list.py:148-160 | the keys are the names of unlinked pairs and the targets of linked ones, each once |
| Aliases.GroupKeepsFirstOrder | src/list.py:148-160 | the keys are the pairs' keys with later repeats dropped, so they come in the order of the first pair filed under each, as the dict keeps them |
| Aliases.GroupListsAliases | src/list.py:149-160 | each key's list is the names of the linked pairs pointing at it, in input order; an unlinked pair never erases recorded aliases |
| Aliases.GroupCountsAliases | src/list.py:149-160 | the alias lists hold as many names as there are linked pairs, so each linked name lands in exactly one list |
| Aliases.GroupCollectsAliases | src/list.py:148-160 | the pony map's keys, alias lists and alias count together |
| Aliases.AliasKeysAreBaseNames | src/list.py:154-158 | a key that received an alias contains no `/` |
| Aliases.UnboldFmt | src/list.py:166 | stripping the bold markers from a formatted name gives back the name |
| Aliases.UnboldLabel | src/list.py:166-179 | the stripped label is `name`, or `name (a b c)` with the aliases joined by spaces |
| Aliases.LabelKeyIsPlain | src/list.py:164-179 | the sort key of a label is the plain label with the aliases sorted, when no name holds an escape character |
| Aliases.JoinWidth | src/list.py:172-176 | aliases joined by single spaces are as wide as their widths plus one per gap, for an additive width |
| Aliases.LabelWidthIsPlainWidth | src/list.py:165-178 | the width figure `w` is the display width of the plain label, for an additive width where a space and each bracket take one column |
| Aliases.PonyItems | src/list.py:163-182 | the items handed to the layout hold no repeats |
| Aliases.PonyItemsListEveryKey | src/list.py:163-182 | every key of the pony map has its label listed |
| Aliases.PonyItemsComeFromKeys | src/list.py:163-182 | every listed item is the label of a key of the pony map |
| Listing.StripSuffixMembers | src/list.py:91-94 | only names of files ending in the suffix are kept, each is a file with the suffix put back, and every such file yields its name |
| Listing.StripSuffixFinds | src/list.py:91-94 | a name is kept exactly when the name plus the suffix is a file |
| Listing.StripSuffixAppend | src/list.py:195-207 | filtering the concatenated listings of several directories is filtering each in turn |
| Listing.Sequence | src/list.py:86-104 | a run of blocks completes exactly when no block fails |
| Listing.SequenceStopsAtFirstFailure | src/list.py:86-104 | the error that ends a run of blocks is that of the first block that fails |
| Listing.SequencePrintsAll | src/list.py:86-104 | when no block fails, every block's output is printed, in order |
| Listing.SimpleBlock | src/list.py:88-104 | a directory with no names left prints nothing; otherwise the header comes first, and the block fails, with a division by zero, exactly when a name is wider than the terminal |
| Listing.SimpleBlockShowsEveryName | src/list.py:100-104 | a block that succeeds prints the header and then every row of the layout of its names (a good grid of the sorted names), and those rows hold exactly as many cells as there are names |
| Listing.SimpleList | src/list.py:86-104 | `simplelist` completes exactly when every directory's block does, and can fail only with a division by zero |
| Listing.MakePairs | src/list.py:140-145 | one pair per name: the pseudo link plus `.pony` when there is one, else a link exactly when the file is a symbolic link, and that link is the path the symbolic link resolves to |
| Listing.PseudoLinkGroupsUnderItsBaseName | src/list.py:142-156 | a name with a pseudo link is grouped under the last path component of that link |
| Listing.LinkItemsEmptyIff | src/list.py:148-182 | the items laid out are empty exactly when there are no pairs |
| Listing.LinkBlock | src/list.py:121-182 | no pony file prints nothing; otherwise the header comes first, and the only errors are `max([])` and the division by zero |
| Listing.LinkBlockShowsEveryKey | src/list.py:121-182 | a block that prints its grid prints the header, then the rows of the layout of the labels, holding every label, and every pony-map key's label is among them |
| Listing.LinkBlockFailures | src/list.py:121-182 | `max([])` fails exactly when the directory has pony files but the `ucsiser` left no name, and the division by zero exactly when a label is wider than the terminal |
| Listing.LinkList | src/list.py:119-182 | `linklist` completes exactly when every directory's block does, and fails only with one of those two errors |
| Listing.SkipRepeats | src/list.py:215-219 | no name is printed twice in a row, and the first printed name differs from the start value |
| Listing.SkipRepeatsIsChanges | src/list.py:215-219 | on any input, the printed names are exactly those that differ from the name before them (the start value for the first), in input order |
| Listing.SkipRepeatsKeepsLaterRepeats | src/list.py:215-219 | only adjacent repeats are skipped: `x, x, y, x` prints `x, y, x` |
| Listing.SkipRepeatsOfSorted | src/list.py:212-219 | on sorted input, the printed names are strictly ascending and are every input name except the start value |
| Listing.OneList | src/list.py:193-219 | the flat list is strictly ascending, without repeats, and holds every stripped name except the empty one |
| Listing.BalloonNames | src/list.py:234-247 | each balloon name is held once, and a name is held exactly when name plus the mode's suffix is a file in some directory |
| Listing.BalloonItemsPermuted | src/list.py:246-250 | the same balloon names in any order give permuted items, each identified by its name |
| Listing.BalloonList | src/list.py:229-250 | the grid fails with `max([])` exactly when there is no balloon, with a division by zero exactly when a name is too wide, and prints nothing when it fails |
| Listing.BalloonListShowsEveryName | src/list.py:229-250 | a balloon listing that does not fail prints the rows of the layout of the balloon names and a blank line, and the rows hold one cell per balloon name |
| Listing.BalloonListIgnoresOrder | src/list.py:234-250 | the balloon grid depends only on which files exist, not on directory order or on duplicates across directories |
| Listing.BalloonListAsWritten | src/list.py:235 | the listing as written fails with a `NameError` and prints nothing, for every input |
| Listing.BalloonListAsWrittenFails | src/list.py:235 | with one `.say` balloon and an 80-column terminal, the intended listing succeeds while the one as written fails |

## Left out

- File system and terminal I/O: `os.listdir`, `os.path.islink`, `os.path.realpath`, `gettermsize` and `print` are not modelled. Directory listings are sequences of names. Symbolic links are a map from a link's path to its real path. The terminal width is a number. Printed text is a list of lines.
- `UCS.dispLen` is a parameter. Its handling of wide and combining characters lives in `src/ucs.py`, which is not part of this model.
- The `ucsiser` callbacks are optional function parameters. They mutate their list (and pseudo-link map) in place; here they return the new list (and map).
- `endswith` comes from `src/common.py`, which is not part of this model. It is taken to be the plain suffix test.
- String order is Python's code-point order. Locale collation plays no part.
- Columnise.ColumniseIgnoresOrder: the order independence assumes that equal plain names carry equal formatted names. Items that share a plain name but differ in formatting keep their input order (`Sorting.SortByIsStable`), so for them the output does depend on the input order, as in the source.
- Python set iteration order is unspecified. The balloon set is modelled in insertion order, and `Listing.BalloonListIgnoresOrder` shows the output does not depend on it.
- Listing.LinkList: the default `ponydirs = None` of `linklist` (src/list.py:115) is not modelled. Without directories the loop at line 119 iterates `None` and raises `TypeError`; the model always takes a list of directories.
- The unused `termsize` locals of `linklist` and `balloonlist` are not modelled.
- Aliases.JoinWidth: assumes the width adds up over every cut. A width that skips escape sequences does not when a cut falls inside a sequence, so as stated the lemma does not cover such a width. The joined aliases are plain file names; a version that assumes additivity only over strings without an escape character is not modelled.
- Aliases.LabelWidthIsPlainWidth: assumes the width adds up over every cut, with the same consequence as for `Aliases.JoinWidth`.
- Aliases.LabelKeyIsPlain: the result is stated only for names without an escape character. A name that itself contains the bold markers would lose them from its key as well.
- Listing.OneList: the skip test compares only with the previous name. Adjacency is stated in general by `Listing.SkipRepeatsIsChanges`. After the sort, this amounts to a full deduplication, so a repeated name that is not adjacent after sorting cannot occur.

## Findings

| source | as written | input that shows it | evidently intended | confidence | as-written member | corrected member |
|---|---|---|---|---|---|---|
| src/list.py:235 | the static method `balloonlist` loops over `self.balloondirs`, but a static method has no `self`, so every call raises `NameError` (provided `src/common.py` defines no global `self`) | `balloonlist([dir], False)` with `dir` holding `cowsay.say`, on an 80-column terminal | loop over the `balloondirs` parameter | not executed | Listing.BalloonListAsWritten, Listing.BalloonListAsWrittenFails | Listing.BalloonList |

=== FILE: aliases.dfy ===
/**
 * The alias grouping and label building of `List.linklist` (src/list.py
 * lines 147-182): symlinked pony files are listed in brackets after the pony
 * they point at, as `name (alias1 alias2)`.
 */
module Aliases {
  import opened Results
  import opened Strings
  import opened Sorting
  import opened Columnise

  /** The terminal's bold on and bold off sequences, treated as plain marker text. */
  const BoldOn: string := "\U{1B}[1m"
  const BoldOff: string := "\U{1B}[21m"
  const Esc: char := '\U{1B}'

  /* ---------------------------------------------------------------------- */
  /* Grouping (lines 147-160)                                               */
  /* ---------------------------------------------------------------------- */

  /** A pony name and the path its file links to, `None` when it is no link. */
  datatype Pair = Pair(name: string, link: Option<string>)

  /** Line 150: `None` and the empty string both mean "no link". */
  predicate Unlinked(p: Pair)
  {
    p.link.None? || p.link.value == ""
  }

  /**
   * Lines 154-156: the link without its last five characters (the `.pony`
   * suffix), cut after its last `/`: the base name of the target.
   */
  function Target(link: string): (t: string)
    ensures '/' !in t
    ensures |t| <= |ButLastN(link, 5)| && t == ButLastN(link, 5)[|ButLastN(link, 5)| - |t|..]
    ensures |t| == |ButLastN(link, 5)| || ButLastN(link, 5)[|ButLastN(link, 5)| - |t| - 1] == '/'
  {
    AfterLast(ButLastN(link, 5), '/')
  }

  /** A link `path.pony` groups under the last component of `path`. */
  lemma TargetDropsPonySuffix(path: string)
    ensures Target(path + ".pony") == AfterLast(path, '/')
  {
    assert ButLastN(path + ".pony", 5) == path;
  }

  /** A link to `dir/name.pony` groups under `name`, whatever the directory. */
  lemma TargetOfPonyFile(dir: string, name: string)
    requires '/' !in name
    ensures Target(dir + "/" + name + ".pony") == name
    ensures Target(name + ".pony") == name
  {
    var s := dir + "/" + name;
    TargetDropsPonySuffix(s);
    TargetDropsPonySuffix(name);
    assert s[|s| - |name| - 1] == '/';
    assert s[|s| - |name|..] == name;
    AfterLastKeepsIff(name, '/');
  }

  /** The pony map: each canonical name and its aliases, keys in insertion order like a Python `dict`. */
  datatype PonyMap = PonyMap(order: seq<string>, aliases: map<string, seq<string>>)

  /** The keys in `order` are those of `aliases`, each once. */
  ghost predicate Valid(pm: PonyMap)
  {
    && (forall i, j :: 0 <= i < j < |pm.order| ==> pm.order[i] != pm.order[j])
    && (forall k :: k in pm.order <==> k in pm.aliases)
  }

  /** The key a pair files itself under: its own name, or the base name of its link's target. */
  function KeyOf(p: Pair): string
  {
    if Unlinked(p) then p.name else Target(p.link.value)
  }

  /** One pass of the loop at lines 149-160. */
  function GroupStep(pm: PonyMap, p: Pair): PonyMap
  {
    var k := KeyOf(p);
    if Unlinked(p) then
      if k in pm.aliases then pm
      else PonyMap(pm.order + [k], pm.aliases[k := []])
    else
      if k in pm.aliases then PonyMap(pm.order, pm.aliases[k := pm.aliases[k] + [p.name]])
      else PonyMap(pm.order + [k], pm.aliases[k := [p.name]])
  }

  /** Lines 148-160: the pony map built from all pairs, in order. */
  function Group(pairs: seq<Pair>): PonyMap
  {
    if |pairs| == 0 then PonyMap([], map[])
    else GroupStep(Group(pairs[..|pairs| - 1]), pairs[|pairs| - 1])
  }

  /** The names of the linked pairs whose target is `k`, in input order. */
  function AliasesOf(pairs: seq<Pair>, k: string): seq<string>
  {
    if |pairs| == 0 then []
    else
      var p := pairs[|pairs| - 1];
      AliasesOf(pairs[..|pairs| - 1], k) + (if !Unlinked(p) && KeyOf(p) == k then [p.name] else [])
  }

  /** `k` names an unlinked pair or is the target of a linked one. */
  ghost predicate Keyed(pairs: seq<Pair>, k: string)
  {
    exists i :: 0 <= i < |pairs| && KeyOf(pairs[i]) == k
  }

  /** How many pairs carry a link. */
  function LinkedCount(pairs: seq<Pair>): nat
  {
    if |pairs| == 0 then 0
    else LinkedCount(pairs[..|pairs| - 1]) + (if Unlinked(pairs[|pairs| - 1]) then 0 else 1)
  }

  /** The total length of the alias lists of the keys in `order`. */
  function TotalAliases(order: seq<string>, aliases: map<string, seq<string>>): nat
    requires forall k :: k in order ==> k in aliases
  {
    if |order| == 0 then 0
    else TotalAliases(order[..|order| - 1], aliases) + |aliases[order[|order| - 1]]|
  }

  lemma {:induction false} TotalAliasesFrame(order: seq<string>, a: map<string, seq<string>>, b: map<string, seq<string>>)
    requires forall k :: k in order ==> k in a && k in b && |a[k]| == |b[k]|
    ensures TotalAliases(order, a) == TotalAliases(order, b)
  {
    if |order| > 0 {
      TotalAliasesFrame(order[..|order| - 1], a, b);
    }
  }

  /** Appending one alias to the list of a key that occurs once adds one to the total. */
  lemma {:induction false} TotalAliasesBump(order: seq<string>, a: map<string, seq<string>>, t: string, x: string)
    requires forall k :: k in order ==> k in a
    requires forall i, j :: 0 <= i < j < |order| ==> order[i] != order[j]
    requires t in order
    ensures TotalAliases(order, a[t := a[t] + [x]]) == TotalAliases(order, a) + 1
  {
    var n := |order|;
    var front := order[..n - 1];
    if order[n - 1] == t {
      assert t !in front;
      TotalAliasesFrame(front, a, a[t := a[t] + [x]]);
    } else {
      assert t in front;
      TotalAliasesBump(front, a, t, x);
    }
  }

  /** Each step keeps the key order free of repeats and in step with the map. */
  lemma StepKeepsValid(pm: PonyMap, p: Pair)
    requires Valid(pm)
    ensures Valid(GroupStep(pm, p))
    ensures forall k :: k in GroupStep(pm, p).aliases <==> k in pm.aliases || k == KeyOf(p)
  {
  }

  /** A pair adds exactly its own key to the keys of the pairs before it. */
  lemma KeyedStep(pairs: seq<Pair>)
    requires |pairs| > 0
    ensures forall k :: Keyed(pairs, k) <==> Keyed(pairs[..|pairs| - 1], k) || k == KeyOf(pairs[|pairs| - 1])
  {
    var n := |pairs|;
    var front, p := pairs[..n - 1], pairs[n - 1];
    forall k
      ensures Keyed(pairs, k) <==> Keyed(front, k) || k == KeyOf(p)
    {
      if Keyed(pairs, k) && k != KeyOf(p) {
        var i :| 0 <= i < n && KeyOf(pairs[i]) == k;
        assert front[i] == pairs[i];
      }
      if Keyed(front, k) {
        var i :| 0 <= i < n - 1 && KeyOf(front[i]) == k;
        assert pairs[i] == front[i];
      }
      if k == KeyOf(p) {
        assert KeyOf(pairs[n - 1]) == k;
      }
    }
  }

  lemma {:induction false} GroupIsValid(pairs: seq<Pair>)
    ensures Valid(Group(pairs))
    ensures forall k :: k in Group(pairs).aliases <==> Keyed(pairs, k)
  {
    if |pairs| > 0 {
      var n := |pairs|;
      var front, p := pairs[..n - 1], pairs[n - 1];
      GroupIsValid(front);
      StepKeepsValid(Group(front), p);
      KeyedStep(pairs);
    }
  }

  /** The key of every pair, in input order. */
  function Keys(pairs: seq<Pair>): seq<string>
  {
    seq(|pairs|, i requires 0 <= i < |pairs| => KeyOf(pairs[i]))
  }

  /**
   * The pony map's keys come in the order of the pairs that first file
   * under them, as a Python `dict` keeps its keys in insertion order.
   */
  lemma {:induction false} GroupKeepsFirstOrder(pairs: seq<Pair>)
    ensures Group(pairs).order == Distinct(Keys(pairs))
  {
    if |pairs| > 0 {
      var n := |pairs|;
      var front, p := pairs[..n - 1], pairs[n - 1];
      var ks := Keys(pairs);
      GroupKeepsFirstOrder(front);
      GroupIsValid(front);
      assert ks[..n - 1] == Keys(front);
      assert ks[n - 1] == KeyOf(p);
      assert Group(pairs) == GroupStep(Group(front), p);
    }
  }

  /** The last pair's step lists, for one key, the aliases the pairs before it listed plus its own. */
  lemma ListsKeyStep(pairs: seq<Pair>, k: string)
    requires |pairs| > 0
    requires var pm := Group(pairs[..|pairs| - 1]);
             && (k in pm.aliases ==> pm.aliases[k] == AliasesOf(pairs[..|pairs| - 1], k))
             && (k !in pm.aliases ==> AliasesOf(pairs[..|pairs| - 1], k) == [])
    requires k in Group(pairs).aliases
    ensures Group(pairs).aliases[k] == AliasesOf(pairs, k)
  {
    var n := |pairs|;
    var front, p := pairs[..n - 1], pairs[n - 1];
    assert Group(pairs) == GroupStep(Group(front), p);
    var added := if !Unlinked(p) && KeyOf(p) == k then [p.name] else [];
    assert AliasesOf(pairs, k) == AliasesOf(front, k) + added;
  }

  lemma {:induction false} GroupListsAliases(pairs: seq<Pair>)
    ensures forall k :: k in Group(pairs).aliases ==> Group(pairs).aliases[k] == AliasesOf(pairs, k)
  {
    if |pairs| > 0 {
      var front := pairs[..|pairs| - 1];
      GroupListsAliases(front);
      GroupIsValid(front);
      GroupUnkeyedHasNoAliases(front);
      forall k | k in Group(pairs).aliases
        ensures Group(pairs).aliases[k] == AliasesOf(pairs, k)
      {
        if k !in Group(front).aliases {
          assert !Keyed(front, k);
        }
        ListsKeyStep(pairs, k);
      }
    }
  }

  lemma {:induction false} GroupUnkeyedHasNoAliases(pairs: seq<Pair>)
    ensures forall k :: !Keyed(pairs, k) ==> AliasesOf(pairs, k) == []
  {
    if |pairs| > 0 {
      var n := |pairs|;
      var front := pairs[..n - 1];
      GroupUnkeyedHasNoAliases(front);
      assert forall k :: !Keyed(pairs, k) ==> KeyOf(pairs[n - 1]) != k;
    }
  }

  lemma {:induction false} GroupCountsAliases(pairs: seq<Pair>)
    ensures Valid(Group(pairs))
    ensures TotalAliases(Group(pairs).order, Group(pairs).aliases) == LinkedCount(pairs)
  {
    GroupIsValid(pairs);
    if |pairs| > 0 {
      var n := |pairs|;
      var front, p := pairs[..n - 1], pairs[n - 1];
      GroupCountsAliases(front);
      var pm := Group(front);
      var pm' := Group(pairs);
      var k := KeyOf(p);
      if Unlinked(p) {
        if k !in pm.aliases {
          TotalAliasesFrame(pm.order, pm.aliases, pm'.aliases);
        }
      } else if k in pm.aliases {
        TotalAliasesBump(pm.order, pm.aliases, k, p.name);
      } else {
        TotalAliasesFrame(pm.order, pm.aliases, pm'.aliases);
      }
    }
  }

  /**
   * The pony map the loop builds: its keys are the names of the unlinked
   * pairs and the targets of the linked ones, each once and in order of
   * first appearance; every linked pair's name is appended to the list of
   * its target and nowhere else; and so the alias lists hold exactly as
   * many names as there are linked pairs.
   */
  lemma GroupCollectsAliases(pairs: seq<Pair>)
    ensures Valid(Group(pairs))
    ensures forall k :: k in Group(pairs).aliases <==> Keyed(pairs, k)
    ensures forall k :: k in Group(pairs).aliases ==> Group(pairs).aliases[k] == AliasesOf(pairs, k)
    ensures TotalAliases(Group(pairs).order, Group(pairs).aliases) == LinkedCount(pairs)
  {
    GroupIsValid(pairs);
    GroupListsAliases(pairs);
    GroupCountsAliases(pairs);
  }

  /** Every key that received an alias is a base name: it contains no `/`. */
  lemma AliasKeysAreBaseNames(pairs: seq<Pair>, k: string)
    requires k in Group(pairs).aliases && |Group(pairs).aliases[k]| > 0
    ensures '/' !in k
  {
    GroupCollectsAliases(pairs);
    AliasOfLinkedPair(pairs, k);
  }

  lemma {:induction false} AliasOfLinkedPair(pairs: seq<Pair>, k: string)
    requires |AliasesOf(pairs, k)| > 0
    ensures '/' !in k
  {
    var n := |pairs|;
    var p := pairs[n - 1];
    if !(!Unlinked(p) && KeyOf(p) == k) {
      AliasOfLinkedPair(pairs[..n - 1], k);
    }
  }

  /* ---------------------------------------------------------------------- */
  /* Labels (lines 162-179)                                                 */
  /* ---------------------------------------------------------------------- */

  /** A name, bold when it is a quoter. */
  function Fmt(s: string, quoters: set<string>): string
  {
    if s in quoters then BoldOn + s + BoldOff else s
  }

  function FmtAll(xs: seq<string>, quoters: set<string>): (r: seq<string>)
    ensures |r| == |xs|
  {
    if |xs| == 0 then [] else [Fmt(xs[0], quoters)] + FmtAll(xs[1..], quoters)
  }

  /** Line 179: `item.replace(BoldOn, '').replace(BoldOff, '')`. */
  function Unbold(s: string): string
  {
    RemoveAll(RemoveAll(s, BoldOn), BoldOff)
  }

  /** Lines 170-177: ` (a b c)`, the aliases after the name, space-separated in brackets. */
  function Bracketed(syms: seq<string>): string
  {
    " (" + (Join(syms, " ") + ")")
  }

  /** The label without formatting: `name`, or `name (a b c)` with the sorted aliases. */
  function PlainLabel(name: string, syms: seq<string>): string
  {
    if |syms| == 0 then name else name + Bracketed(syms)
  }

  /** Lines 165-178: the formatted label with its width figure `w`. */
  datatype Label = Label(key: string, item: string, width: nat)

  /** The sum of the display widths of `xs`. */
  function SumWidths(xs: seq<string>, dl: string -> nat): nat
  {
    if |xs| == 0 then 0 else dl(xs[0]) + SumWidths(xs[1..], dl)
  }

  /** The label built from a name and its aliases already sorted (lines 166-178). */
  function LabelOf(name: string, syms: seq<string>, quoters: set<string>, dl: string -> nat): Label
  {
    var item := Fmt(name, quoters) + (if |syms| > 0 then Bracketed(FmtAll(syms, quoters)) else "");
    var w := dl(name) + (if |syms| > 0 then 2 + |syms| + SumWidths(syms, dl) else 0);
    Label(Unbold(item), item, w)
  }

  /** The label of one pony map entry, as the loop body at lines 165-179 builds it. */
  function MakeLabel(name: string, aliases: seq<string>, quoters: set<string>, dl: string -> nat): Label
  {
    LabelOf(name, SortBy(aliases, Itself), quoters, dl)
  }

  lemma UnboldPassesClean(x: string, rest: string)
    requires Esc !in x
    ensures Unbold(x + rest) == x + Unbold(rest)
  {
    RemoveAllSkipsClean(x, rest, BoldOn);
    RemoveAllSkipsClean(x, RemoveAll(rest, BoldOn), BoldOff);
  }

  /** Removing the markers from a formatted name followed by more text gives back the name. */
  lemma UnboldFmt(x: string, rest: string, quoters: set<string>)
    requires Esc !in x
    ensures Unbold(Fmt(x, quoters) + rest) == x + Unbold(rest)
  {
    if x in quoters {
      assert Fmt(x, quoters) + rest == BoldOn + (x + (BoldOff + rest));
      RemoveAllDropsToken(x + (BoldOff + rest), BoldOn);
      RemoveAllSkipsClean(x, BoldOff + rest, BoldOn);
      RemoveAllKeepsOther(BoldOff, rest, BoldOn, 2);
      var r1 := RemoveAll(rest, BoldOn);
      assert RemoveAll(Fmt(x, quoters) + rest, BoldOn) == x + (BoldOff + r1);
      RemoveAllSkipsClean(x, BoldOff + r1, BoldOff);
      RemoveAllDropsToken(r1, BoldOff);
    } else {
      UnboldPassesClean(x, rest);
    }
  }

  lemma {:induction false} UnboldJoin(xs: seq<string>, rest: string, quoters: set<string>)
    requires forall i :: 0 <= i < |xs| ==> Esc !in xs[i]
    ensures Unbold(Join(FmtAll(xs, quoters), " ") + rest) == Join(xs, " ") + Unbold(rest)
  {
    if |xs| == 0 {
      assert Join(FmtAll(xs, quoters), " ") + rest == rest;
    } else if |xs| == 1 {
      UnboldFmt(xs[0], rest, quoters);
    } else {
      var f := FmtAll(xs, quoters);
      assert f[1..] == FmtAll(xs[1..], quoters);
      var tail := Join(FmtAll(xs[1..], quoters), " ") + rest;
      assert Join(f, " ") + rest == Fmt(xs[0], quoters) + (" " + tail);
      UnboldFmt(xs[0], " " + tail, quoters);
      UnboldPassesClean(" ", tail);
      UnboldJoin(xs[1..], rest, quoters);
    }
  }

  /** Removing the markers from the bracketed aliases leaves them plain. */
  lemma UnboldAliases(syms: seq<string>, quoters: set<string>)
    requires forall i :: 0 <= i < |syms| ==> Esc !in syms[i]
    ensures Unbold(Bracketed(FmtAll(syms, quoters))) == Bracketed(syms)
  {
    var inner := Join(FmtAll(syms, quoters), " ");
    UnboldPassesClean(" (", inner + ")");
    UnboldJoin(syms, ")", quoters);
    UnboldPassesClean(")", "");
    assert ")" + "" == ")";
    assert Unbold("") == "";
  }

  lemma UnboldLabel(name: string, syms: seq<string>, quoters: set<string>, dl: string -> nat)
    requires Esc !in name && forall i :: 0 <= i < |syms| ==> Esc !in syms[i]
    ensures LabelOf(name, syms, quoters, dl).key == PlainLabel(name, syms)
  {
    if |syms| == 0 {
      assert Unbold("") == "";
      UnboldFmt(name, "", quoters);
      assert Fmt(name, quoters) + "" == Fmt(name, quoters);
    } else {
      UnboldFmt(name, Bracketed(FmtAll(syms, quoters)), quoters);
      UnboldAliases(syms, quoters);
    }
  }

  /**
   * The sort key of a label is the plain label: with the bold markers
   * removed, `name (a b c)` is left, with the aliases in sorted order, as
   * long as no name itself contains an escape character.
   */
  lemma LabelKeyIsPlain(name: string, aliases: seq<string>, quoters: set<string>, dl: string -> nat)
    requires Esc !in name && forall i :: 0 <= i < |aliases| ==> Esc !in aliases[i]
    ensures MakeLabel(name, aliases, quoters, dl).key == PlainLabel(name, SortBy(aliases, Itself))
  {
    var syms := SortBy(aliases, Itself);
    forall i | 0 <= i < |syms|
      ensures Esc !in syms[i]
    {
      assert syms[i] in multiset(aliases);
    }
    UnboldLabel(name, syms, quoters, dl);
  }

  /** A display width that adds up over concatenation. */
  ghost predicate Additive(dl: string -> nat)
  {
    forall a, b :: dl(a + b) == dl(a) + dl(b)
  }

  lemma {:induction false} JoinWidth(xs: seq<string>, dl: string -> nat)
    requires Additive(dl) && dl(" ") == 1 && |xs| > 0
    ensures dl(Join(xs, " ")) == SumWidths(xs, dl) + |xs| - 1
  {
    if |xs| > 1 {
      JoinWidth(xs[1..], dl);
      assert Join(xs, " ") == xs[0] + " " + Join(xs[1..], " ");
    }
  }

  /**
   * The width figure `w` is the display width of the plain label when
   * display width adds up over concatenation and a space and each bracket
   * take one column.
   */
  lemma LabelWidthIsPlainWidth(name: string, syms: seq<string>, quoters: set<string>, dl: string -> nat)
    requires Additive(dl) && dl(" ") == 1 && dl("(") == 1 && dl(")") == 1
    ensures LabelOf(name, syms, quoters, dl).width == dl(PlainLabel(name, syms))
  {
    if |syms| > 0 {
      JoinWidth(syms, dl);
      var j := Join(syms, " ");
      assert dl(" (") == 2 by {
        assert " (" == " " + "(";
      }
      assert dl(name + Bracketed(syms)) == dl(name) + dl(" (") + dl(j) + dl(")");
    }
  }

  /* ---------------------------------------------------------------------- */
  /* The listed items (lines 163-182)                                       */
  /* ---------------------------------------------------------------------- */

  /** The `(key, item)` pair the label of key `k` contributes. */
  function KeyItem(pm: PonyMap, k: string, quoters: set<string>, dl: string -> nat): Item
    requires k in pm.aliases
  {
    var l := MakeLabel(k, pm.aliases[k], quoters, dl);
    Item(l.key, l.item)
  }

  /** The `(key, item)` pairs of the keys in `order`, in that order. */
  function OrderItems(pm: PonyMap, order: seq<string>, quoters: set<string>, dl: string -> nat): (its: seq<Item>)
    requires forall k :: k in order ==> k in pm.aliases
    ensures |its| == |order|
    ensures forall i :: 0 <= i < |order| ==> its[i] == KeyItem(pm, order[i], quoters, dl)
  {
    if |order| == 0 then [] else [KeyItem(pm, order[0], quoters, dl)] + OrderItems(pm, order[1..], quoters, dl)
  }

  /**
   * Lines 163-182: `list(ponies)` for the dict `ponies` keyed by
   * `(key, item)`, that is each pair once, where it was first inserted. The
   * width figure is the dict's value and does not reach the layout.
   */
  function PonyItems(pm: PonyMap, quoters: set<string>, dl: string -> nat): (its: seq<Item>)
    requires Valid(pm)
    ensures NoRepeats(its)
  {
    Distinct(OrderItems(pm, pm.order, quoters, dl))
  }

  /** Every key of the pony map has its label listed. */
  lemma PonyItemsListEveryKey(pm: PonyMap, k: string, quoters: set<string>, dl: string -> nat)
    requires Valid(pm) && k in pm.aliases
    ensures KeyItem(pm, k, quoters, dl) in PonyItems(pm, quoters, dl)
  {
    var all := OrderItems(pm, pm.order, quoters, dl);
    var i :| 0 <= i < |pm.order| && pm.order[i] == k;
    assert all[i] == KeyItem(pm, k, quoters, dl);
  }

  /** Nothing but labels of the pony map's keys is listed. */
  lemma PonyItemsComeFromKeys(pm: PonyMap, j: nat, quoters: set<string>, dl: string -> nat)
    requires Valid(pm) && j < |PonyItems(pm, quoters, dl)|
    ensures exists k :: k in pm.aliases && PonyItems(pm, quoters, dl)[j] == KeyItem(pm, k, quoters, dl)
  {
    var all := OrderItems(pm, pm.order, quoters, dl);
    var r := PonyItems(pm, quoters, dl);
    assert r == Distinct(all);
    assert r[j] in all;
    var i :| 0 <= i < |all| && all[i] == r[j];
    var k := pm.order[i];
    assert k in pm.aliases && all[i] == KeyItem(pm, k, quoters, dl);
  }

  /** The items `linklist` lays out for one directory's pairs. */
  function LinkItems(pairs: seq<Pair>, quoters: set<string>, dl: string -> nat): seq<Item>
  {
    GroupIsValid(pairs);
    PonyItems(Group(pairs), quoters, dl)
  }
}

=== FILE: columnise.dfy ===
/**
 * `List.__columnise` (src/list.py lines 29-74): sorts the items by their
 * plain name, sizes the cells, fills the grid column by column, smooths the
 * overflow and prints the grid row by row. The terminal width and the
 * display-width function `dl` (the source's `UCS.dispLen`) are parameters.
 */
module Columnise {
  import opened Results
  import opened Strings
  import opened Sorting
  import opened Fill

  /** An entry to list: the plain name, which orders and measures it, and the text printed for it. */
  datatype Item = Item(plain: string, formatted: string)

  function PlainOf(it: Item): string { it.plain }

  /** Python's `max(xs)` on a non-empty list. */
  function MaxOf(xs: seq<nat>): (m: nat)
    requires |xs| > 0
    ensures m in xs
    ensures forall i :: 0 <= i < |xs| ==> xs[i] <= m
  {
    if |xs| == 1 then xs[0]
    else
      var m := MaxOf(xs[1..]);
      assert forall i :: 1 <= i < |xs| ==> xs[i] == xs[1..][i - 1];
      if xs[0] >= m then xs[0] else m
  }

  /** Line 34: the display width of every plain name. */
  function Widths(items: seq<Item>, dl: string -> nat): (ws: seq<nat>)
    ensures |ws| == |items|
    ensures forall j :: 0 <= j < |items| ==> ws[j] == dl(items[j].plain)
  {
    if |items| == 0 then [] else [dl(items[0].plain)] + Widths(items[1..], dl)
  }

  /** Line 46: the formatted name, padded with spaces to the cell width as measured on the plain name. */
  function Cell(it: Item, width: nat, dl: string -> nat): string
  {
    it.formatted + Spaces(width - dl(it.plain))
  }

  function Cells(items: seq<Item>, width: nat, dl: string -> nat): (cells: seq<string>)
    ensures |cells| == |items|
  {
    seq(|items|, j requires 0 <= j < |items| => Cell(items[j], width, dl))
  }

  /** A laid-out listing: the sorted items, the cell width, the grid's size and its columns. */
  datatype Grid = Grid(items: seq<Item>, width: nat, cols: nat, rows: nat, columns: seq<seq<string>>)

  /** Some item's plain name is wider than the terminal, so not even one column fits. */
  predicate TooWide(items: seq<Item>, termWidth: nat, dl: string -> nat)
  {
    exists i :: 0 <= i < |items| && dl(items[i].plain) > termWidth
  }

  lemma TooWideIgnoresOrder(a: seq<Item>, b: seq<Item>, termWidth: nat, dl: string -> nat)
    requires multiset(a) == multiset(b)
    ensures TooWide(a, termWidth, dl) <==> TooWide(b, termWidth, dl)
  {
    if TooWide(a, termWidth, dl) {
      var i :| 0 <= i < |a| && dl(a[i].plain) > termWidth;
      assert a[i] in multiset(b);
      var j :| 0 <= j < |b| && b[j] == a[i];
    }
    if TooWide(b, termWidth, dl) {
      var j :| 0 <= j < |b| && dl(b[j].plain) > termWidth;
      assert b[j] in multiset(a);
      var i :| 0 <= i < |a| && a[i] == b[j];
    }
  }

  /** What a grid built from `items` promises. */
  ghost predicate GoodGrid(items: seq<Item>, termWidth: nat, dl: string -> nat, g: Grid)
  {
    // the items, sorted by plain name
    && SortedBy(g.items, PlainOf) && multiset(g.items) == multiset(items)
    // the widest plain name plus the two-column gutter
    && (forall i :: 0 <= i < |g.items| ==> dl(g.items[i].plain) + 2 <= g.width)
    && (exists i :: 0 <= i < |g.items| && dl(g.items[i].plain) + 2 == g.width)
    // as many columns as fit the terminal, at least one, and rows = ceil(n / cols)
    && g.cols >= 1 && g.cols == (termWidth + 2) / g.width
    && g.rows == RowCount(|items|, g.cols)
    // every sorted item, padded, in column-major order, in columns of at most `rows` cells
    && |g.columns| == g.cols
    && Concat(g.columns) == Cells(g.items, g.width, dl)
    && (forall c :: 0 <= c < g.cols ==> |g.columns[c]| <= g.rows)
    && |g.columns[0]| == g.rows
  }

  /** Lines 37-62 once the cell width and column count are known: the fill and the smoothing pass. */
  function BuildGrid(sorted: seq<Item>, width: nat, cols: nat, dl: string -> nat): Grid
    requires cols >= 1
  {
    var n := |sorted|;
    var rows := RowCount(n, cols);
    Grid(sorted, width, cols, rows, Smoothing(NaiveFill(Cells(sorted, width, dl), rows, cols), rows, n))
  }

  /** The grid built for any column count: `rows` from the ceiling, every cell kept, the first column full, none longer. */
  lemma BuildGridShape(sorted: seq<Item>, width: nat, cols: nat, dl: string -> nat)
    requires |sorted| > 0 && cols >= 1
    ensures var g := BuildGrid(sorted, width, cols, dl);
            && g.items == sorted && g.width == width && g.cols == cols
            && g.rows == RowCount(|sorted|, cols)
            && |g.columns| == cols
            && Concat(g.columns) == Cells(sorted, width, dl)
            && (forall c :: 0 <= c < cols ==> |g.columns[c]| <= g.rows)
            && |g.columns[0]| == g.rows
  {
    var n := |sorted|;
    var rows := RowCount(n, cols);
    var cells := Cells(sorted, width, dl);
    var naive := NaiveFill(cells, rows, cols);
    var columns := Smoothing(naive, rows, n);
    assert BuildGrid(sorted, width, cols, dl) == Grid(sorted, width, cols, rows, columns);
    RowCountIsCeiling(n, cols);
    NaiveFillKeepsCells(cells, rows, cols);
    NaiveFillShape(cells, rows, cols);
    assert |columns[0]| == |naive[0]| == rows;
    SmoothingStaysWithinRows(cells, rows, cols);
  }

  lemma BuildGridIsGood(sorted: seq<Item>, termWidth: nat, width: nat, cols: nat, dl: string -> nat)
    requires |sorted| > 0 && SortedBy(sorted, PlainOf)
    requires forall i :: 0 <= i < |sorted| ==> dl(sorted[i].plain) + 2 <= width
    requires exists i :: 0 <= i < |sorted| && dl(sorted[i].plain) + 2 == width
    requires cols == (termWidth + 2) / width && cols >= 1
    ensures GoodGrid(sorted, termWidth, dl, BuildGrid(sorted, width, cols, dl))
  {
    var g := BuildGrid(sorted, width, cols, dl);
    BuildGridShape(sorted, width, cols, dl);
    assert g.items == sorted && g.width == width;
    var i :| 0 <= i < |sorted| && dl(sorted[i].plain) + 2 == width;
    assert dl(g.items[i].plain) + 2 == g.width;
  }

  lemma DivIsZero(a: nat, b: nat)
    requires b >= 1
    ensures a / b == 0 <==> a < b
  {
  }

  /** Line 35: the cell width is the widest name plus the gutter. */
  function CellWidth(items: seq<Item>, dl: string -> nat): (width: nat)
    requires |items| > 0
    ensures forall i :: 0 <= i < |items| ==> dl(items[i].plain) + 2 <= width
    ensures exists i :: 0 <= i < |items| && dl(items[i].plain) + 2 == width
  {
    var widths := Widths(items, dl);
    var width := MaxOf(widths) + 2;
    assert exists i :: 0 <= i < |items| && dl(items[i].plain) + 2 == width by {
      var i :| 0 <= i < |widths| && widths[i] == width - 2;
    }
    width
  }

  /** Line 38: no column fits exactly when some name is wider than the terminal. */
  lemma NoColumnIffTooWide(items: seq<Item>, termWidth: nat, dl: string -> nat)
    requires |items| > 0
    ensures (termWidth + 2) / CellWidth(items, dl) == 0 <==> TooWide(items, termWidth, dl)
  {
    var width := CellWidth(items, dl);
    DivIsZero(termWidth + 2, width);
    if termWidth + 2 < width {
      var i :| 0 <= i < |items| && dl(items[i].plain) + 2 == width;
    }
  }

  /**
   * Lines 34-62 on the sorted items: the cell width, the column and row
   * counts, the column-major fill and the smoothing pass.
   */
  function LayoutSorted(sorted: seq<Item>, termWidth: nat, dl: string -> nat): (r: Result<Grid, ListError>)
    requires |sorted| > 0 && SortedBy(sorted, PlainOf)
    ensures r == Err(ZeroColumns) <==> TooWide(sorted, termWidth, dl)
    ensures r.Err? ==> r.error == ZeroColumns
    ensures r.Ok? ==> r.value.items == sorted && GoodGrid(sorted, termWidth, dl, r.value)
  {
    var width := CellWidth(sorted, dl);
    var cols := (termWidth + 2) / width;
    NoColumnIffTooWide(sorted, termWidth, dl);
    if cols == 0 then Err(ZeroColumns)
    else
      BuildGridIsGood(sorted, termWidth, width, cols, dl);
      Ok(BuildGrid(sorted, width, cols, dl))
  }

  /**
   * Lines 31-62. An empty listing fails at `max`, a name wider than the
   * terminal leaves zero columns and fails at the division; otherwise the
   * grid holds every item once, in order, and no column outgrows the rows.
   */
  function Layout(items: seq<Item>, termWidth: nat, dl: string -> nat): (r: Result<Grid, ListError>)
    ensures r == Err(MaxOfEmpty) <==> |items| == 0
    ensures r == Err(ZeroColumns) <==> |items| > 0 && TooWide(items, termWidth, dl)
    ensures r.Err? ==> r.error == MaxOfEmpty || r.error == ZeroColumns
    ensures r.Ok? ==> GoodGrid(items, termWidth, dl, r.value)
  {
    if |items| == 0 then Err(MaxOfEmpty)
    else
      var sorted := SortBy(items, PlainOf);
      TooWideIgnoresOrder(items, sorted, termWidth, dl);
      assert |sorted| == |items| by {
        assert |multiset(sorted)| == |multiset(items)|;
      }
      LayoutSorted(sorted, termWidth, dl)
  }

  /** Lines 64-74: the rows of the grid, then the blank line printed after it. */
  function Columnise(items: seq<Item>, termWidth: nat, dl: string -> nat): Result<seq<string>, ListError>
  {
    match Layout(items, termWidth, dl)
    case Ok(g) => Ok(Lines(g.columns, g.rows) + [""])
    case Err(e) => Err(e)
  }

  /**
   * Every cell is the formatted name followed by at least two spaces: the
   * padding brings each plain name to the common width, which leaves the
   * widest one the two-column gutter.
   */
  lemma CellsArePadded(items: seq<Item>, width: nat, dl: string -> nat, j: nat)
    requires j < |items| && dl(items[j].plain) + 2 <= width
    ensures Cells(items, width, dl)[j] == items[j].formatted + Spaces(width - dl(items[j].plain))
    ensures EndsWith(Cells(items, width, dl)[j], "  ")
  {
    var cell := Cells(items, width, dl)[j];
    var pad := Spaces(width - dl(items[j].plain));
    assert cell[|cell| - 2..] == pad[|pad| - 2..];
  }

  /** The printed rows of a good grid show every cell once, each minus only its gutter. */
  lemma GoodGridShowsEveryCell(items: seq<Item>, termWidth: nat, dl: string -> nat, g: Grid)
    requires GoodGrid(items, termWidth, dl, g)
    ensures forall r :: 0 <= r < g.rows ==> Lines(g.columns, g.rows)[r] + "  " == Concat(RowCells(g.columns, r))
    ensures Shown(g.columns, g.rows) == |items|
    ensures forall c, i :: 0 <= c < |g.columns| && 0 <= i < |g.columns[c]| ==>
              i < g.rows && g.columns[c][i] in RowCells(g.columns, i)
  {
    var cells := Cells(g.items, g.width, dl);
    assert |g.items| == |items| by {
      assert |multiset(g.items)| == |multiset(items)|;
    }
    forall x | x in Concat(g.columns)
      ensures EndsWith(x, "  ")
    {
      var j :| 0 <= j < |cells| && cells[j] == x;
      CellsArePadded(g.items, g.width, dl, j);
    }
    forall r | 0 <= r < g.rows
      ensures Lines(g.columns, g.rows)[r] + "  " == Concat(RowCells(g.columns, r))
    {
      LineDropsOnlyGutter(g.columns, g.rows, r);
    }
    LinesShowEveryCell(g.columns, g.rows);
  }

  /**
   * What the printed listing shows: one line per row plus a trailing blank
   * line; line `r` is the cells of row `r` joined, with only the gutter of
   * its last cell cut; and the rows show exactly as many cells as there are
   * items, each item's cell on the row of its index in its column.
   */
  lemma ColumniseShowsEveryItem(items: seq<Item>, termWidth: nat, dl: string -> nat)
    requires Layout(items, termWidth, dl).Ok?
    ensures var g := Layout(items, termWidth, dl).value;
            var out := Columnise(items, termWidth, dl).value;
            && |out| == g.rows + 1 && out[g.rows] == ""
            && (forall r :: 0 <= r < g.rows ==> out[r] + "  " == Concat(RowCells(g.columns, r)))
            && Shown(g.columns, g.rows) == |items|
            && (forall c, i :: 0 <= c < |g.columns| && 0 <= i < |g.columns[c]| ==>
                  i < g.rows && g.columns[c][i] in RowCells(g.columns, i))
  {
    var g := Layout(items, termWidth, dl).value;
    var lines := Lines(g.columns, g.rows);
    assert Columnise(items, termWidth, dl) == Ok(lines + [""]);
    GoodGridShowsEveryCell(items, termWidth, dl, g);
    forall r | 0 <= r < g.rows
      ensures (lines + [""])[r] == lines[r]
    {
    }
  }

  /**
   * What the fit lemmas assume of the display width. They do not assume that
   * it adds up over every cut: a width that skips escape sequences does not
   * when the cut falls inside one. They assume only that a formatted name
   * padded with `k` spaces is `k` columns wider than its plain name, that the
   * width adds up across a cut right after such a padded name, and that the
   * empty string takes no columns. A width that skips escape sequences meets
   * all three whenever each formatted name closes the sequences it opens, as
   * the bold names of the listing do.
   */
  ghost predicate PadsLikePlain(items: seq<Item>, dl: string -> nat)
  {
    && dl("") == 0
    && (forall it, k: nat :: it in items ==> dl(it.formatted + Spaces(k)) == dl(it.plain) + k)
    && (forall it, k: nat, s :: it in items ==>
          dl(it.formatted + Spaces(k) + s) == dl(it.formatted + Spaces(k)) + dl(s))
  }

  /** `x` is the padded cell, `width` columns and at least two spaces of padding, of one of `items`. */
  ghost predicate IsCellOf(x: string, items: seq<Item>, width: nat, dl: string -> nat)
  {
    exists it :: it in items && dl(it.plain) + 2 <= width && x == Cell(it, width, dl)
  }

  /** A padded cell is exactly the cell width wide, its formatting taking no columns of its own. */
  lemma CellIsWidthWide(items: seq<Item>, it: Item, width: nat, dl: string -> nat)
    requires PadsLikePlain(items, dl) && it in items && dl(it.plain) <= width
    ensures dl(Cell(it, width, dl)) == width
  {
    assert Cell(it, width, dl) == it.formatted + Spaces(width - dl(it.plain));
  }

  /** Whatever follows a padded cell adds its own width to the cell's. */
  lemma CellThenRest(items: seq<Item>, it: Item, width: nat, dl: string -> nat, rest: string)
    requires PadsLikePlain(items, dl) && it in items && dl(it.plain) <= width
    ensures dl(Cell(it, width, dl) + rest) == width + dl(rest)
  {
    CellIsWidthWide(items, it, width, dl);
    var k := width - dl(it.plain);
    assert Cell(it, width, dl) == it.formatted + Spaces(k);
    assert dl(it.formatted + Spaces(k) + rest) == dl(it.formatted + Spaces(k)) + dl(rest);
  }

  /** A cell with at least two spaces of padding, less its two-column gutter, is two columns short of the cell width. */
  lemma TrimmedCellWidth(items: seq<Item>, it: Item, width: nat, dl: string -> nat)
    requires PadsLikePlain(items, dl) && it in items && dl(it.plain) + 2 <= width
    ensures |Cell(it, width, dl)| >= 2
    ensures dl(ButLastN(Cell(it, width, dl), 2)) + 2 == width
  {
    var k: nat := width - dl(it.plain);
    var front := it.formatted + Spaces(k - 2);
    assert Cell(it, width, dl) == front + "  " by {
      assert Spaces(k) == Spaces(k - 2) + "  ";
    }
    assert ButLastN(Cell(it, width, dl), 2) == front;
    assert dl(front) == dl(it.plain) + (k - 2);
  }

  /** Cutting the last two characters of `x + rest` cuts them from `rest`. */
  lemma ButTwoOfJoin(x: string, rest: string)
    requires |rest| >= 2
    ensures ButLastN(x + rest, 2) == x + ButLastN(rest, 2)
  {
  }

  /** One more padded cell in front of a trimmed row adds the cell width. */
  lemma TrimmedRowStep(row: seq<string>, items: seq<Item>, it: Item, width: nat, dl: string -> nat)
    requires PadsLikePlain(items, dl) && it in items && dl(it.plain) <= width
    requires |row| > 1 && row[0] == Cell(it, width, dl)
    requires |Concat(row[1..])| >= 2
    requires dl(ButLastN(Concat(row[1..]), 2)) + 2 == (|row| - 1) * width
    ensures |Concat(row)| >= 2
    ensures dl(ButLastN(Concat(row), 2)) + 2 == |row| * width
  {
    var rest := Concat(row[1..]);
    assert Concat(row) == row[0] + rest;
    ButTwoOfJoin(row[0], rest);
    CellThenRest(items, it, width, dl, ButLastN(rest, 2));
    assert (|row| - 1) * width + width == |row| * width;
  }

  /**
   * A row of padded cells, less the two-column gutter of its last cell, is
   * two columns short of `width` columns per cell.
   */
  lemma {:induction false} TrimmedRowWidth(row: seq<string>, items: seq<Item>, width: nat, dl: string -> nat)
    requires PadsLikePlain(items, dl)
    requires |row| > 0 && forall x :: x in row ==> IsCellOf(x, items, width, dl)
    ensures |Concat(row)| >= 2
    ensures dl(ButLastN(Concat(row), 2)) + 2 == |row| * width
  {
    assert IsCellOf(row[0], items, width, dl);
    var it :| it in items && dl(it.plain) + 2 <= width && row[0] == Cell(it, width, dl);
    if |row| == 1 {
      assert Concat(row) == row[0] + Concat(row[1..]);
      assert Concat(row[1..]) == [];
      assert Concat(row) == row[0];
      TrimmedCellWidth(items, it, width, dl);
    } else {
      assert forall x :: x in row[1..] ==> x in row;
      TrimmedRowWidth(row[1..], items, width, dl);
      TrimmedRowStep(row, items, it, width, dl);
    }
  }

  /** Every cell of a good grid is a padded cell of one of the items, and `cols` cells fit the terminal and the gutter. */
  lemma GridCellsArePadded(items: seq<Item>, termWidth: nat, dl: string -> nat, g: Grid)
    requires GoodGrid(items, termWidth, dl, g)
    ensures forall x :: x in Concat(g.columns) ==> IsCellOf(x, items, g.width, dl)
    ensures g.cols * g.width <= termWidth + 2
  {
    var cells := Cells(g.items, g.width, dl);
    forall x | x in cells
      ensures IsCellOf(x, items, g.width, dl)
    {
      var j :| 0 <= j < |cells| && cells[j] == x;
      assert g.items[j] in multiset(items);
      assert x == Cell(g.items[j], g.width, dl);
    }
    var w :| 0 <= w < |g.items| && dl(g.items[w].plain) + 2 == g.width;
    DivModSplit(termWidth + 2, g.width);
  }

  /** A row of at most `cols` padded cells, less its gutter, fits when `cols` cells fit with the gutter. */
  lemma RowFits(row: seq<string>, items: seq<Item>, w: nat, cols: nat, termWidth: nat, dl: string -> nat)
    requires PadsLikePlain(items, dl)
    requires forall x :: x in row ==> IsCellOf(x, items, w, dl)
    requires |row| <= cols && cols * w <= termWidth + 2
    ensures dl(ButLastN(Concat(row), 2)) <= termWidth
  {
    if |row| == 0 {
      assert ButLastN(Concat(row), 2) == "";
    } else {
      TrimmedRowWidth(row, items, w, dl);
      MulMono(|row|, cols, w);
    }
  }

  /**
   * Every printed row fits the terminal: a row holds at most `cols` cells of
   * `width` columns each, `cols * width` is at most the terminal width plus
   * the two-column gutter, and the gutter of the last cell is cut.
   */
  lemma GoodGridFitsTerminal(items: seq<Item>, termWidth: nat, dl: string -> nat, g: Grid)
    requires PadsLikePlain(items, dl)
    requires GoodGrid(items, termWidth, dl, g)
    ensures forall r :: 0 <= r < g.rows ==> dl(Lines(g.columns, g.rows)[r]) <= termWidth
  {
    GridCellsArePadded(items, termWidth, dl, g);
    forall r | 0 <= r < g.rows
      ensures dl(Lines(g.columns, g.rows)[r]) <= termWidth
    {
      var row := RowCells(g.columns, r);
      forall x | x in row
        ensures IsCellOf(x, items, g.width, dl)
      {
        RowCellsFromColumns(g.columns, r, x);
      }
      RowCellsAtMostCols(g.columns, r);
      RowFits(row, items, g.width, g.cols, termWidth, dl);
    }
  }

  /** Lines that fit keep fitting with a blank line after them. */
  lemma BlankLineFits(lines: seq<string>, termWidth: nat, dl: string -> nat)
    requires dl("") == 0
    requires forall i :: 0 <= i < |lines| ==> dl(lines[i]) <= termWidth
    ensures forall i :: 0 <= i < |lines + [""]| ==> dl((lines + [""])[i]) <= termWidth
  {
    forall i | 0 <= i < |lines + [""]|
      ensures dl((lines + [""])[i]) <= termWidth
    {
      if i < |lines| {
        assert (lines + [""])[i] == lines[i];
      }
    }
  }

  /** The rows of a successful layout, and the blank line after them, fit the terminal. */
  lemma LayoutFitsTerminal(items: seq<Item>, termWidth: nat, dl: string -> nat)
    requires PadsLikePlain(items, dl)
    requires Layout(items, termWidth, dl).Ok?
    ensures var g := Layout(items, termWidth, dl).value;
            var out := Lines(g.columns, g.rows) + [""];
            forall i :: 0 <= i < |out| ==> dl(out[i]) <= termWidth
  {
    var g := Layout(items, termWidth, dl).value;
    GoodGridFitsTerminal(items, termWidth, dl, g);
    BlankLineFits(Lines(g.columns, g.rows), termWidth, dl);
  }

  /** Every line of a printed listing, the blank one after the grid included, fits the terminal. */
  lemma ColumniseFitsTerminal(items: seq<Item>, termWidth: nat, dl: string -> nat)
    requires PadsLikePlain(items, dl)
    requires Layout(items, termWidth, dl).Ok?
    ensures Columnise(items, termWidth, dl).Ok?
    ensures forall i :: 0 <= i < |Columnise(items, termWidth, dl).value| ==>
              dl(Columnise(items, termWidth, dl).value[i]) <= termWidth
  {
    var g := Layout(items, termWidth, dl).value;
    assert Columnise(items, termWidth, dl) == Ok(Lines(g.columns, g.rows) + [""]);
    LayoutFitsTerminal(items, termWidth, dl);
  }

  /**
   * The listing does not depend on the order the items arrive in, as long as
   * equal plain names carry equal formatted names: the items are sorted first.
   */
  lemma ColumniseIgnoresOrder(a: seq<Item>, b: seq<Item>, termWidth: nat, dl: string -> nat)
    requires multiset(a) == multiset(b)
    requires KeyIdentifies(a, PlainOf)
    ensures Columnise(a, termWidth, dl) == Columnise(b, termWidth, dl)
  {
    assert |a| == |multiset(a)| == |multiset(b)| == |b|;
    SortIgnoresInputOrder(a, b, PlainOf);
    assert Layout(a, termWidth, dl) == Layout(b, termWidth, dl);
  }
}

=== FILE: fill.dfy ===
/**
 * The grid arithmetic of `List.__columnise` (src/list.py): how many rows,
 * the column-major fill, the overflow smoothing pass and the transposition of
 * columns into printed lines. Everything here is generic in the cell type
 * except the final joining of cells into text.
 */
module Fill {
  import opened Strings

  /* ---------------------------------------------------------------------- */
  /* Rows and column bounds                                                 */
  /* ---------------------------------------------------------------------- */

  /** `(n + cols - 1) // cols`: the rows needed for `n` cells in `cols` columns. */
  function RowCount(n: nat, cols: nat): nat
    requires cols >= 1
  {
    (n + cols - 1) / cols
  }

  /**
   * The row count is the ceiling of `n / cols`: the grid has room for every
   * cell, one row fewer would not do, and fewer than `cols` cells are empty.
   */
  lemma RowCountIsCeiling(n: nat, cols: nat)
    requires cols >= 1
    ensures RowCount(n, cols) * cols >= n
    ensures n > 0 ==> RowCount(n, cols) >= 1 && (RowCount(n, cols) - 1) * cols < n
    ensures 0 <= RowCount(n, cols) * cols - n < cols
    ensures RowCount(n, cols) <= n
  {
    var q := n + cols - 1;
    var r := RowCount(n, cols);
    DivModSplit(q, cols);
    var rc := r * cols;
    assert rc <= q < rc + cols;
    if r >= 1 {
      MulPred(r, cols);
      MulAtLeast(r - 1, cols);
    } else {
      assert rc == 0;
    }
  }

  lemma MulPred(a: nat, k: nat)
    requires a >= 1
    ensures (a - 1) * k == a * k - k
  {
  }

  lemma MulAtLeast(a: nat, k: nat)
    requires k >= 1
    ensures a <= a * k
  {
  }

  lemma MulMono(a: nat, b: nat, k: nat)
    requires a <= b
    ensures a * k <= b * k
  {
  }

  /** `min(i * rows, n)`: where column `i` starts when `n` cells are filled column-major. */
  function Bound(i: nat, rows: nat, n: nat): nat
  {
    Min(i * rows, n)
  }

  lemma BoundStep(i: nat, rows: nat, n: nat)
    ensures Bound(i, rows, n) <= Bound(i + 1, rows, n) <= Bound(i, rows, n) + rows
  {
    assert (i + 1) * rows == i * rows + rows;
  }

  /* ---------------------------------------------------------------------- */
  /* Column-major fill (lines 40-51)                                        */
  /* ---------------------------------------------------------------------- */

  /** Column `c` holds cells `c * rows` up to `(c + 1) * rows`, clipped to the cells there are. */
  function NaiveFill<T>(cells: seq<T>, rows: nat, cols: nat): (columns: seq<seq<T>>)
    ensures |columns| == cols
  {
    seq(cols, c requires 0 <= c < cols =>
      BoundStep(c, rows, |cells|);
      cells[Bound(c, rows, |cells|)..Bound(c + 1, rows, |cells|)])
  }

  /** `(a + 1) * k` unfolded, the one piece of non-linear arithmetic the fill needs. */
  lemma MulSucc(a: nat, k: nat)
    ensures (a + 1) * k == a * k + k
  {
  }

  /**
   * How the bounds move when cell `j`, at row `y` of column `x`, is placed:
   * column `x` grows by that cell, every other column stays as it was.
   */
  lemma FillStepBounds(rows: nat, x: nat, y: nat, j: nat, c: nat)
    requires j == x * rows + y && y < rows
    ensures c == x ==> Bound(c, rows, j) == Bound(c, rows, j + 1) == x * rows
    ensures c == x ==> Bound(c + 1, rows, j) == j && Bound(c + 1, rows, j + 1) == j + 1
    ensures c < x ==> Bound(c, rows, j) == Bound(c, rows, j + 1) && Bound(c + 1, rows, j) == Bound(c + 1, rows, j + 1)
    ensures c > x ==> Bound(c, rows, j) == Bound(c + 1, rows, j) == j
    ensures c > x ==> Bound(c, rows, j + 1) == Bound(c + 1, rows, j + 1) == j + 1
  {
    MulSucc(x, rows);
    MulSucc(c, rows);
    if c < x {
      MulMono(c + 1, x, rows);
    } else if c > x {
      MulMono(x + 1, c, rows);
    }
  }

  /** While cells remain, the column counter is a real column. */
  lemma FillStaysInColumns(rows: nat, cols: nat, x: nat, y: nat, j: nat, n: nat)
    requires j == x * rows + y && j < n <= rows * cols
    ensures x < cols
  {
    if x >= cols {
      MulMono(cols, x, rows);
    }
  }

  /**
   * The fill loop of the source: a row counter `y` and a column counter `x`,
   * moving to the next column whenever `rows` cells have been placed. It
   * never indexes past the last column and builds exactly `NaiveFill`.
   */
  method FillColumns<T>(cells: seq<T>, rows: nat, cols: nat) returns (columns: seq<seq<T>>)
    requires rows >= 1 && |cells| <= rows * cols
    ensures columns == NaiveFill(cells, rows, cols)
  {
    columns := seq(cols, _ => []);
    var y, x := 0, 0;
    for j := 0 to |cells|
      invariant j == x * rows + y && 0 <= y < rows
      invariant |columns| == cols
      invariant forall c :: 0 <= c < cols ==> columns[c] == cells[Bound(c, rows, j)..Bound(c + 1, rows, j)]
    {
      FillStaysInColumns(rows, cols, x, y, j, |cells|);
      ghost var before := columns;
      columns := columns[x := columns[x] + [cells[j]]];
      forall c | 0 <= c < cols
        ensures columns[c] == cells[Bound(c, rows, j + 1)..Bound(c + 1, rows, j + 1)]
      {
        FillStepBounds(rows, x, y, j, c);
      }
      y := y + 1;
      if y == rows {
        MulSucc(x, rows);
        x := x + 1;
        y := 0;
      }
    }
  }

  /** One more column of the fill continues the cells where the columns before it stopped. */
  lemma NaiveFillStep<T>(cells: seq<T>, rows: nat, cols: nat, k: nat)
    requires k < cols
    requires Concat(NaiveFill(cells, rows, cols)[..k]) == cells[..Bound(k, rows, |cells|)]
    ensures Concat(NaiveFill(cells, rows, cols)[..k + 1]) == cells[..Bound(k + 1, rows, |cells|)]
  {
    var columns := NaiveFill(cells, rows, cols);
    var a, b := Bound(k, rows, |cells|), Bound(k + 1, rows, |cells|);
    BoundStep(k, rows, |cells|);
    assert columns[..k + 1] == columns[..k] + [columns[k]];
    ConcatAppend(columns[..k], [columns[k]]);
    assert Concat([columns[k]]) == columns[k];
    assert columns[k] == cells[a..b];
    assert cells[..a] + cells[a..b] == cells[..b];
  }

  /** The fill loses nothing and reorders nothing: reading the columns in order gives back the cells. */
  lemma NaiveFillKeepsCells<T>(cells: seq<T>, rows: nat, cols: nat)
    requires |cells| <= rows * cols
    ensures Concat(NaiveFill(cells, rows, cols)) == cells
  {
    var columns := NaiveFill(cells, rows, cols);
    var n := |cells|;
    for k := 0 to cols
      invariant Concat(columns[..k]) == cells[..Bound(k, rows, n)]
    {
      NaiveFillStep(cells, rows, cols, k);
    }
    assert cols * rows == rows * cols;
    assert Bound(cols, rows, n) == n;
    assert columns[..cols] == columns;
  }

  /** Cell `j` lands in column `j / rows`, at row `j % rows`, and that column exists. */
  lemma NaiveFillPlacement<T>(cells: seq<T>, rows: nat, cols: nat, j: nat)
    requires rows >= 1 && |cells| <= rows * cols && j < |cells|
    ensures j / rows < cols
    ensures j % rows < |NaiveFill(cells, rows, cols)[j / rows]|
    ensures NaiveFill(cells, rows, cols)[j / rows][j % rows] == cells[j]
  {
    var c, k := j / rows, j % rows;
    DivModSplit(j, rows);
    FillStaysInColumns(rows, cols, c, k, j, |cells|);
    FillStepBounds(rows, c, k, j, c);
    var column := NaiveFill(cells, rows, cols)[c];
    assert column == cells[Bound(c, rows, |cells|)..Bound(c + 1, rows, |cells|)];
    assert Bound(c, rows, |cells|) == c * rows;
    MulSucc(c, rows);
    assert Bound(c + 1, rows, |cells|) > j;
  }

  lemma DivModSplit(j: nat, rows: nat)
    requires rows >= 1
    ensures j == (j / rows) * rows + j % rows && j % rows < rows
  {
  }

  /**
   * The shape of the naive fill: no column is longer than `rows`, a column
   * only has cells when the one before it is full, and with at least `rows`
   * cells the first column is full.
   */
  lemma NaiveFillShape<T>(cells: seq<T>, rows: nat, cols: nat)
    ensures forall c :: 0 <= c < cols ==> |NaiveFill(cells, rows, cols)[c]| <= rows
    ensures forall c :: 1 <= c < cols && |NaiveFill(cells, rows, cols)[c]| > 0 ==>
              |NaiveFill(cells, rows, cols)[c - 1]| == rows
    ensures cols >= 1 && |cells| >= rows ==> |NaiveFill(cells, rows, cols)[0]| == rows
  {
    var columns := NaiveFill(cells, rows, cols);
    var n := |cells|;
    forall c | 0 <= c < cols
      ensures |columns[c]| <= rows
      ensures c >= 1 && |columns[c]| > 0 ==> |columns[c - 1]| == rows
    {
      BoundStep(c, rows, n);
      if c >= 1 {
        assert c * rows == (c - 1) * rows + rows;
      }
    }
  }

  /* ---------------------------------------------------------------------- */
  /* Overflow smoothing (lines 53-62)                                       */
  /* ---------------------------------------------------------------------- */

  /** Two neighbouring columns may be re-cut anywhere without changing the concatenation. */
  lemma {:induction false} ConcatRecut<T>(columns: seq<seq<T>>, c: nat, a: seq<T>, b: seq<T>)
    requires 1 <= c < |columns| && a + b == columns[c - 1] + columns[c]
    ensures Concat(columns[c - 1 := a][c := b]) == Concat(columns)
  {
    var pre, post := columns[..c - 1], columns[c + 1..];
    assert columns == pre + [columns[c - 1], columns[c]] + post;
    assert columns[c - 1 := a][c := b] == pre + [a, b] + post;
    ConcatAppend(pre + [a, b], post);
    ConcatAppend(pre, [a, b]);
    ConcatAppend(pre + [columns[c - 1], columns[c]], post);
    ConcatAppend(pre, [columns[c - 1], columns[c]]);
    assert Concat([a, b]) == a + b by {
      assert [a, b][1..] == [b];
      assert Concat([b]) == b;
    }
    var x, y := columns[c - 1], columns[c];
    assert Concat([x, y]) == x + y by {
      assert [x, y][1..] == [y];
      assert Concat([y]) == y;
    }
  }

  /**
   * One pass of the smoothing loop: the last `d` cells of column `c - 1`
   * (`columns[c - 1][-d:]`) move to the front of column `c`, and column
   * `c - 1` keeps `columns[c - 1][:-d]`. Nothing is lost or duplicated and
   * no other column changes.
   */
  function MoveTail<T>(columns: seq<seq<T>>, c: nat, d: nat): (r: seq<seq<T>>)
    requires 1 <= c < |columns|
    ensures |r| == |columns|
    ensures Concat(r) == Concat(columns)
    ensures forall i :: 0 <= i < |columns| && i != c && i != c - 1 ==> r[i] == columns[i]
  {
    var left, right := ButLastN(columns[c - 1], d), LastN(columns[c - 1], d) + columns[c];
    SplitAtNegative(columns[c - 1], d);
    ConcatRecut(columns, c, left, right);
    columns[c - 1 := left][c := right]
  }

  /**
   * The smoothing loop from column `c` with `d` cells to move: `d` cells
   * into column `c`, then `d - 1` into column `c - 1`, and so on down to one.
   * It never reaches below column 0, keeps the concatenation of the columns,
   * touches only columns `c - d` to `c`, and from a good state keeps every
   * column within `rows`.
   */
  function SmoothFrom<T>(columns: seq<seq<T>>, c: nat, d: nat): (r: seq<seq<T>>)
    requires d <= c < |columns|
    ensures |r| == |columns|
    ensures Concat(r) == Concat(columns)
    ensures forall i :: 0 <= i < |columns| && (i + d < c || c < i) ==> r[i] == columns[i]
    ensures forall rows: nat :: SmoothState(columns, c, d, rows) ==> WithinRows(r, rows)
    decreases d
  {
    if d == 0 then columns
    else
      MoveTailKeepsStates(columns, c, d);
      SmoothFrom(MoveTail(columns, c, d), c - 1, d - 1)
  }

  /** One pass of the loop keeps every good state good. */
  lemma MoveTailKeepsStates<T>(columns: seq<seq<T>>, c: nat, d: nat)
    requires 0 < d <= c < |columns|
    ensures forall rows: nat :: SmoothState(columns, c, d, rows) ==> SmoothState(MoveTail(columns, c, d), c - 1, d - 1, rows)
  {
    forall rows: nat | SmoothState(columns, c, d, rows)
      ensures SmoothState(MoveTail(columns, c, d), c - 1, d - 1, rows)
    {
      MoveTailKeepsState(columns, c, d, rows);
    }
  }

  /**
   * Lines 54-62. With `diff` empty cells in the naive grid, smoothing runs
   * only when `diff > 2` and there is more than one row; it then moves
   * `diff - 1`, `diff - 2`, ..., `1` cells rightwards, starting at the last
   * column. The cells read column by column are unchanged, and the first
   * column is never touched.
   */
  function Smoothing<T>(columns: seq<seq<T>>, rows: nat, n: nat): (r: seq<seq<T>>)
    requires |columns| >= 1 && rows == RowCount(n, |columns|)
    ensures |r| == |columns|
    ensures Concat(r) == Concat(columns)
    ensures r[0] == columns[0]
    ensures !(rows * |columns| - n > 2 && rows > 1) ==> r == columns
  {
    var cols := |columns|;
    var diff := rows * cols - n;
    RowCountIsCeiling(n, cols);
    if diff > 2 && rows > 1 then SmoothFrom(columns, cols - 1, diff - 1)
    else columns
  }

  /** No column holds more than `rows` cells. */
  ghost predicate WithinRows<T>(columns: seq<seq<T>>, rows: nat)
  {
    forall i :: 0 <= i < |columns| ==> |columns[i]| <= rows
  }

  /**
   * A state of the smoothing loop in which every column still fits in
   * `rows`, and so does column `c` once the next pass has moved its cells in.
   */
  ghost predicate SmoothState<T>(columns: seq<seq<T>>, c: nat, d: nat, rows: nat)
  {
    && d <= c < |columns|
    && WithinRows(columns, rows)
    && (c == 0 || |columns[c]| + Min(d, |columns[c - 1]|) <= rows)
  }

  /** How many cells the two columns `MoveTail` re-cuts hold afterwards. */
  lemma MoveTailLengths<T>(columns: seq<seq<T>>, c: nat, d: nat)
    requires 1 <= c < |columns| && d > 0
    ensures |MoveTail(columns, c, d)[c - 1]| == Max(0, |columns[c - 1]| - d)
    ensures |MoveTail(columns, c, d)[c]| == Min(d, |columns[c - 1]|) + |columns[c]|
  {
  }

  /** One pass of the loop keeps its state good. */
  lemma MoveTailKeepsState<T>(columns: seq<seq<T>>, c: nat, d: nat, rows: nat)
    requires SmoothState(columns, c, d, rows) && d > 0
    ensures SmoothState(MoveTail(columns, c, d), c - 1, d - 1, rows)
  {
    MoveTailLengths(columns, c, d);
  }

  /**
   * The shape the smoothing pass starts from: columns within `rows`, and a
   * non-empty last column holding exactly `rows - diff` cells.
   */
  ghost predicate FillShape<T>(columns: seq<seq<T>>, rows: nat, n: nat)
  {
    && |columns| >= 1
    && WithinRows(columns, rows)
    && (|columns[|columns| - 1]| == 0 || |columns[|columns| - 1]| + (rows * |columns| - n) == rows)
  }

  lemma NaiveFillHasShape<T>(cells: seq<T>, rows: nat, cols: nat)
    requires cols >= 1 && rows == RowCount(|cells|, cols)
    ensures FillShape(NaiveFill(cells, rows, cols), rows, |cells|)
  {
    var n := |cells|;
    var columns := NaiveFill(cells, rows, cols);
    var last := cols - 1;
    RowCountIsCeiling(n, cols);
    NaiveFillShape(cells, rows, cols);
    MulSucc(last, rows);
    assert rows * cols == last * rows + rows;
    assert columns[last] == cells[Bound(last, rows, n)..Bound(last + 1, rows, n)];
    assert Bound(last + 1, rows, n) == n;
  }

  /** From that shape, with `diff` empty cells, the smoothing loop starts in a good state. */
  lemma ShapeStartsSmoothing<T>(columns: seq<seq<T>>, rows: nat, n: nat, diff: nat)
    requires FillShape(columns, rows, n) && diff == rows * |columns| - n
    requires 2 < diff < |columns|
    ensures SmoothState(columns, |columns| - 1, diff - 1, rows)
  {
  }

  /** With more than two empty cells and more than one row, smoothing is the loop from the last column. */
  lemma SmoothingRuns<T>(columns: seq<seq<T>>, rows: nat, n: nat, diff: nat)
    requires |columns| >= 1 && rows == RowCount(n, |columns|) && diff == rows * |columns| - n
    requires diff > 2 && rows > 1
    ensures diff - 1 <= |columns| - 1
    ensures Smoothing(columns, rows, n) == SmoothFrom(columns, |columns| - 1, diff - 1)
  {
    RowCountIsCeiling(n, |columns|);
  }

  /** From that shape, smoothing keeps every column within `rows`. */
  lemma SmoothingKeepsShapeWithinRows<T>(columns: seq<seq<T>>, rows: nat, n: nat)
    requires FillShape(columns, rows, n) && rows == RowCount(n, |columns|)
    ensures WithinRows(Smoothing(columns, rows, n), rows)
  {
    var cols := |columns|;
    var diff := rows * cols - n;
    RowCountIsCeiling(n, cols);
    if diff > 2 && rows > 1 {
      SmoothingRuns(columns, rows, n, diff);
      ShapeStartsSmoothing(columns, rows, n, diff);
    } else {
      assert Smoothing(columns, rows, n) == columns;
    }
  }

  /**
   * After smoothing the naive fill, no column is longer than `rows`: the
   * `rows` printed lines therefore show every cell.
   */
  lemma SmoothingStaysWithinRows<T>(cells: seq<T>, rows: nat, cols: nat)
    requires cols >= 1 && rows == RowCount(|cells|, cols)
    ensures forall i :: 0 <= i < cols ==>
              |Smoothing(NaiveFill(cells, rows, cols), rows, |cells|)[i]| <= rows
  {
    NaiveFillHasShape(cells, rows, cols);
    SmoothingKeepsShapeWithinRows(NaiveFill(cells, rows, cols), rows, |cells|);
  }

  /**
   * The comment above the smoothing pass promises a partially empty last row
   * rather than a short last column. It does not hold in general: seven cells
   * in six columns end up in columns of 2, 1, 1, 2, 1 and 0 cells, so the
   * fourth column is longer than the second. The rows are read off without
   * padding the short columns, so the second row prints cell 5, which sits
   * in the fourth column, straight after cell 1.
   */
  lemma SmoothingCanLeaveGaps()
    ensures var r := Smoothing(NaiveFill([0, 1, 2, 3, 4, 5, 6], 2, 6), 2, 7);
            |r[1]| == 1 && |r[3]| == 2 && r[3][1] == 5 && RowCells(r, 1) == [1, 5]
  {
    var f := NaiveFill([0, 1, 2, 3, 4, 5, 6], 2, 6);
    GapsFill();
    RowCountIsCeiling(7, 6);
    assert Smoothing(f, 2, 7) == SmoothFrom(f, 5, 4);
    GapsMove5();
    GapsMove4();
    GapsMove3();
    GapsMove2();
    assert SmoothFrom(f, 5, 4) == SmoothFrom(f, 4, 3);
    assert SmoothFrom(f, 4, 3) == SmoothFrom([[0, 1], [2, 3], [4, 5], [], [6], []], 3, 2);
    assert SmoothFrom([[0, 1], [2, 3], [4, 5], [], [6], []], 3, 2)
        == SmoothFrom([[0, 1], [2, 3], [], [4, 5], [6], []], 2, 1);
    assert SmoothFrom([[0, 1], [2, 3], [], [4, 5], [6], []], 2, 1)
        == SmoothFrom([[0, 1], [2], [3], [4, 5], [6], []], 1, 0);
    GapsSecondRow();
  }

  lemma GapsSecondRow()
    ensures RowCells([[0, 1], [2], [3], [4, 5], [6], []], 1) == [1, 5]
  {
    var cs := [[0, 1], [2], [3], [4, 5], [6], []];
    assert RowCells(cs[5..], 1) == [];
    assert RowCells(cs[4..], 1) == [] by {
      assert cs[4..][1..] == cs[5..];
    }
    assert RowCells(cs[3..], 1) == [5] by {
      assert cs[3..][1..] == cs[4..];
    }
    assert RowCells(cs[2..], 1) == [5] by {
      assert cs[2..][1..] == cs[3..];
    }
    assert RowCells(cs[1..], 1) == [5] by {
      assert cs[1..][1..] == cs[2..];
    }
  }

  lemma GapsFill()
    ensures NaiveFill([0, 1, 2, 3, 4, 5, 6], 2, 6) == [[0, 1], [2, 3], [4, 5], [6], [], []]
  {
    var cells := [0, 1, 2, 3, 4, 5, 6];
    var f := NaiveFill(cells, 2, 6);
    assert Bound(4, 2, 7) == Bound(5, 2, 7) == Bound(6, 2, 7) == 7;
    assert Bound(0, 2, 7) == 0 && Bound(1, 2, 7) == 2 && Bound(2, 2, 7) == 4 && Bound(3, 2, 7) == 6;
    assert f[0] == [0, 1] && f[1] == [2, 3] && f[2] == [4, 5] && f[3] == [6] && f[4] == [] && f[5] == [];
  }

  lemma GapsMove5()
    ensures MoveTail([[0, 1], [2, 3], [4, 5], [6], [], []], 5, 4) == [[0, 1], [2, 3], [4, 5], [6], [], []]
  {
    var f: seq<seq<int>> := [[0, 1], [2, 3], [4, 5], [6], [], []];
    assert ButLastN(f[4], 4) == [] && LastN(f[4], 4) + f[5] == [];
  }

  lemma GapsMove4()
    ensures MoveTail([[0, 1], [2, 3], [4, 5], [6], [], []], 4, 3) == [[0, 1], [2, 3], [4, 5], [], [6], []]
  {
    var f: seq<seq<int>> := [[0, 1], [2, 3], [4, 5], [6], [], []];
    assert ButLastN(f[3], 3) == [] && LastN(f[3], 3) + f[4] == [6];
  }

  lemma GapsMove3()
    ensures MoveTail([[0, 1], [2, 3], [4, 5], [], [6], []], 3, 2) == [[0, 1], [2, 3], [], [4, 5], [6], []]
  {
    var f: seq<seq<int>> := [[0, 1], [2, 3], [4, 5], [], [6], []];
    assert ButLastN(f[2], 2) == [] && LastN(f[2], 2) + f[3] == [4, 5];
  }

  lemma GapsMove2()
    ensures MoveTail([[0, 1], [2, 3], [], [4, 5], [6], []], 2, 1) == [[0, 1], [2], [3], [4, 5], [6], []]
  {
    var f: seq<seq<int>> := [[0, 1], [2, 3], [], [4, 5], [6], []];
    assert ButLastN(f[1], 1) == [2] && LastN(f[1], 1) + f[2] == [3];
  }

  /* ---------------------------------------------------------------------- */
  /* Transposition into lines (lines 64-73)                                 */
  /* ---------------------------------------------------------------------- */

  /** Row `r`: cell `r` of every column that has more than `r` cells, left to right. */
  function RowCells<T>(columns: seq<seq<T>>, r: nat): seq<T>
  {
    if |columns| == 0 then []
    else (if r < |columns[0]| then [columns[0][r]] else []) + RowCells(columns[1..], r)
  }

  /** A row holds at most one cell per column. */
  lemma {:induction false} RowCellsAtMostCols<T>(columns: seq<seq<T>>, r: nat)
    ensures |RowCells(columns, r)| <= |columns|
  {
    if |columns| > 0 {
      RowCellsAtMostCols(columns[1..], r);
    }
  }

  /** Each of the `rows` rows joined into one string, minus its last two characters. */
  function Lines(columns: seq<seq<string>>, rows: nat): (lines: seq<string>)
    ensures |lines| == rows
  {
    seq(rows, r requires 0 <= r < rows => ButLastN(Concat(RowCells(columns, r)), 2))
  }

  /** Every cell of every column shows up on the row of its index. */
  lemma {:induction false} RowCellsHasCell<T>(columns: seq<seq<T>>, c: nat, i: nat)
    requires c < |columns| && i < |columns[c]|
    ensures columns[c][i] in RowCells(columns, i)
  {
    if c > 0 {
      RowCellsHasCell(columns[1..], c - 1, i);
    }
  }

  /** Rows only show cells of the columns. */
  lemma {:induction false} RowCellsFromColumns<T>(columns: seq<seq<T>>, r: nat, x: T)
    requires x in RowCells(columns, r)
    ensures x in Concat(columns)
  {
    if |columns| > 0 {
      if !(r < |columns[0]| && x == columns[0][r]) {
        RowCellsFromColumns(columns[1..], r, x);
      }
    }
  }

  /** How many cells rows `0` to `k - 1` show in all. */
  function Shown<T>(columns: seq<seq<T>>, k: nat): nat
  {
    if k == 0 then 0 else Shown(columns, k - 1) + |RowCells(columns, k - 1)|
  }

  /** The first column adds one cell to row `r` when it is longer than `r`. */
  lemma RowCellsSplit<T>(columns: seq<seq<T>>, r: nat)
    requires |columns| > 0
    ensures |RowCells(columns, r)| == (if r < |columns[0]| then 1 else 0) + |RowCells(columns[1..], r)|
  {
  }

  lemma ShownSplit<T>(columns: seq<seq<T>>, k: nat)
    requires |columns| > 0
    ensures Shown(columns, k) == Min(|columns[0]|, k) + Shown(columns[1..], k)
  {
    var j := 0;
    while j < k
      invariant j <= k
      invariant Shown(columns, j) == Min(|columns[0]|, j) + Shown(columns[1..], j)
    {
      RowCellsSplit(columns, j);
      j := j + 1;
    }
  }

  /**
   * When no column is longer than `rows`, the `rows` lines show exactly as
   * many cells as the columns hold: none is dropped and none is repeated.
   */
  lemma {:induction false} LinesShowEveryCell<T>(columns: seq<seq<T>>, rows: nat)
    requires forall c :: 0 <= c < |columns| ==> |columns[c]| <= rows
    ensures Shown(columns, rows) == |Concat(columns)|
    ensures forall c, i :: 0 <= c < |columns| && 0 <= i < |columns[c]| ==>
              i < rows && columns[c][i] in RowCells(columns, i)
  {
    ConcatLength(columns);
    if |columns| == 0 {
      assert Shown(columns, rows) == 0 by {
        var k := 0;
        while k < rows
          invariant k <= rows && Shown(columns, k) == 0
        {
          k := k + 1;
        }
      }
    } else {
      ShownSplit(columns, rows);
      LinesShowEveryCell(columns[1..], rows);
      ConcatLength(columns[1..]);
    }
    forall c, i | 0 <= c < |columns| && 0 <= i < |columns[c]|
      ensures columns[c][i] in RowCells(columns, i)
    {
      RowCellsHasCell(columns, c, i);
    }
  }

  /**
   * When every cell ends in the two-space gutter, cutting two characters off
   * a non-empty row removes exactly the gutter of its last cell.
   */
  lemma LineDropsOnlyGutter(columns: seq<seq<string>>, rows: nat, r: nat)
    requires forall x :: x in Concat(columns) ==> EndsWith(x, "  ")
    requires |columns| > 0 && r < |columns[0]| && r < rows
    ensures Lines(columns, rows)[r] + "  " == Concat(RowCells(columns, r))
  {
    var row := RowCells(columns, r);
    var k := |row|;
    assert row[0] == columns[0][r];
    var last := row[k - 1];
    RowCellsFromColumns(columns, r, last);
    assert row == row[..k - 1] + [last];
    ConcatAppend(row[..k - 1], [last]);
    assert Concat([last]) == last;
    var s := Concat(row);
    assert EndsWith(s, "  ");
    assert s == s[..|s| - 2] + s[|s| - 2..];
  }
}

=== FILE: listing.dfy ===
/**
 * The four listing modes of `List` (src/list.py lines 85-250): per-directory
 * grids of pony names (`simplelist`, `linklist`), the flat sorted list
 * (`onelist`) and the balloon grid (`balloonlist`). What `os.listdir` and
 * `os.path.realpath` report, the `ucsiser` callbacks, the terminal width
 * and the display-width function are inputs.
 */
module Listing {
  import opened Results
  import opened Strings
  import opened Sorting
  import opened Columnise
  import opened Aliases
  import opened Fill

  /** A directory path, ending in the path separator, and the names listed in it. */
  datatype Dir = Dir(path: string, files: seq<string>)

  /** The lines a listing prints, and the error that ended it early, if any. */
  datatype Run = Run(out: seq<string>, failure: Option<ListError>)

  /* ---------------------------------------------------------------------- */
  /* Suffix filters (lines 91-94, 124-127, 204-207, 238-243)                 */
  /* ---------------------------------------------------------------------- */

  /** The names of the files ending in `suffix`, with the suffix cut off, in listing order. */
  function StripSuffix(files: seq<string>, suffix: string): (r: seq<string>)
    requires |suffix| > 0
    ensures |r| <= |files|
  {
    if |files| == 0 then []
    else
      var rest := StripSuffix(files[1..], suffix);
      if EndsWith(files[0], suffix) then [ButLastN(files[0], |suffix|)] + rest else rest
  }

  /** Every kept name is a file with the suffix cut off, and every file ending in the suffix yields its name. */
  lemma {:induction false} StripSuffixMembers(files: seq<string>, suffix: string)
    requires |suffix| > 0
    ensures forall i :: 0 <= i < |StripSuffix(files, suffix)| ==> StripSuffix(files, suffix)[i] + suffix in files
    ensures forall i :: 0 <= i < |files| && EndsWith(files[i], suffix) ==>
              files[i][..|files[i]| - |suffix|] in StripSuffix(files, suffix)
  {
    if |files| > 0 {
      var f, tail := files[0], files[1..];
      var rest := StripSuffix(tail, suffix);
      var r := StripSuffix(files, suffix);
      StripSuffixMembers(tail, suffix);
      var head := if EndsWith(f, suffix) then [ButLastN(f, |suffix|)] else [];
      assert r == head + rest;
      if EndsWith(f, suffix) {
        assert ButLastN(f, |suffix|) == f[..|f| - |suffix|];
        assert f[..|f| - |suffix|] + suffix == f;
      }
      forall i | 0 <= i < |r|
        ensures r[i] + suffix in files
      {
        if i >= |head| {
          assert r[i] == rest[i - |head|];
          assert rest[i - |head|] + suffix in tail;
        }
      }
      forall i | 0 <= i < |files| && EndsWith(files[i], suffix)
        ensures files[i][..|files[i]| - |suffix|] in r
      {
        if i > 0 {
          assert files[i] == tail[i - 1];
        }
      }
    }
  }

  /** A name is kept exactly when the name with the suffix put back is one of the files. */
  lemma StripSuffixFinds(files: seq<string>, suffix: string, x: string)
    requires |suffix| > 0
    ensures x in StripSuffix(files, suffix) <==> x + suffix in files
  {
    StripSuffixMembers(files, suffix);
    if x + suffix in files {
      var i :| 0 <= i < |files| && files[i] == x + suffix;
      assert EndsWith(files[i], suffix);
      assert files[i][..|files[i]| - |suffix|] == x;
    }
  }

  /** Filtering two listings one after the other is filtering their concatenation. */
  lemma {:induction false} StripSuffixAppend(a: seq<string>, b: seq<string>, suffix: string)
    requires |suffix| > 0
    ensures StripSuffix(a + b, suffix) == StripSuffix(a, suffix) + StripSuffix(b, suffix)
  {
    if |a| == 0 {
      assert a + b == b;
    } else {
      assert (a + b)[0] == a[0];
      assert (a + b)[1..] == a[1..] + b;
      StripSuffixAppend(a[1..], b, suffix);
    }
  }

  /* ---------------------------------------------------------------------- */
  /* Printing                                                               */
  /* ---------------------------------------------------------------------- */

  /** Lines 103 and 132: the bold directory header. */
  function Header(path: string): string
  {
    BoldOn + "ponies located in " + path + BoldOff
  }

  /** The lines printed before a layout, then the layout's lines or the error it raised. */
  function Emit(before: seq<string>, layout: Result<seq<string>, ListError>): Run
  {
    match layout
    case Ok(lines) => Run(before + lines, None)
    case Err(e) => Run(before, Some(e))
  }

  /** One run after the other; an error ends the listing and the later runs never print. */
  function Sequence(rs: seq<Run>): (r: Run)
    ensures r.failure.None? <==> forall i :: 0 <= i < |rs| ==> rs[i].failure.None?
  {
    if |rs| == 0 then Run([], None)
    else if rs[0].failure.Some? then rs[0]
    else
      var rest := Sequence(rs[1..]);
      Run(rs[0].out + rest.out, rest.failure)
  }

  /** The error that ends a listing is that of the first run that fails. */
  lemma {:induction false} SequenceStopsAtFirstFailure(rs: seq<Run>)
    requires Sequence(rs).failure.Some?
    ensures exists i :: 0 <= i < |rs| && Sequence(rs).failure == rs[i].failure &&
                        forall j :: 0 <= j < i ==> rs[j].failure.None?
  {
    if rs[0].failure.None? {
      SequenceStopsAtFirstFailure(rs[1..]);
      var i :| 0 <= i < |rs[1..]| && Sequence(rs[1..]).failure == rs[1..][i].failure &&
               forall j :: 0 <= j < i ==> rs[1..][j].failure.None?;
      assert rs[i + 1] == rs[1..][i];
      assert forall j :: 0 < j <= i ==> rs[j] == rs[1..][j - 1];
    }
  }

  /** The output of every run, one after the other. */
  function Outs(rs: seq<Run>): seq<seq<string>>
  {
    if |rs| == 0 then [] else [rs[0].out] + Outs(rs[1..])
  }

  /** When no run fails, everything every run prints is printed, in order. */
  lemma {:induction false} SequencePrintsAll(rs: seq<Run>)
    requires forall i :: 0 <= i < |rs| ==> rs[i].failure.None?
    ensures Sequence(rs).out == Concat(Outs(rs))
  {
    if |rs| > 0 {
      SequencePrintsAll(rs[1..]);
    }
  }

  /* ---------------------------------------------------------------------- */
  /* simplelist (lines 85-104)                                              */
  /* ---------------------------------------------------------------------- */

  /** An optional `ucsiser` callback, applied to the list of names when present. */
  function Ucsise(names: seq<string>, ucsiser: Option<seq<string> -> seq<string>>): seq<string>
  {
    if ucsiser.Some? then ucsiser.value(names) else names
  }

  /** Lines 91-98: the names `simplelist` lists for a directory. */
  function SimpleNames(d: Dir, ucsiser: Option<seq<string> -> seq<string>>): seq<string>
  {
    Ucsise(StripSuffix(d.files, ".pony"), ucsiser)
  }

  /** Line 104: each name as plain text, formatted bold when it is a quoter. */
  function SimpleItems(names: seq<string>, quoters: set<string>): (its: seq<Item>)
    ensures |its| == |names|
    ensures forall i :: 0 <= i < |names| ==> its[i] == Item(names[i], Fmt(names[i], quoters))
  {
    if |names| == 0 then [] else [Item(names[0], Fmt(names[0], quoters))] + SimpleItems(names[1..], quoters)
  }

  /**
   * One directory of `simplelist`: nothing when no name is left after the
   * `ucsiser` runs, otherwise the header and then the grid. The header is
   * printed before the layout can fail, and it fails only when some name is
   * wider than the terminal.
   */
  function SimpleBlock(d: Dir, quoters: set<string>, ucsiser: Option<seq<string> -> seq<string>>,
                       termWidth: nat, dl: string -> nat): (r: Run)
    ensures |SimpleNames(d, ucsiser)| == 0 ==> r == Run([], None)
    ensures |SimpleNames(d, ucsiser)| > 0 ==> |r.out| > 0 && r.out[0] == Header(d.path)
    ensures |SimpleNames(d, ucsiser)| > 0 ==>
              (r.failure.None? <==> !TooWide(SimpleItems(SimpleNames(d, ucsiser), quoters), termWidth, dl))
    ensures r.failure.None? || r.failure == Some(ZeroColumns)
  {
    var names := SimpleNames(d, ucsiser);
    if |names| == 0 then Run([], None)
    else Emit([Header(d.path)], Columnise.Columnise(SimpleItems(names, quoters), termWidth, dl))
  }

  /** A layout fails on no items at all, or on an item wider than the terminal. */
  lemma EmitFailures(before: seq<string>, items: seq<Item>, termWidth: nat, dl: string -> nat)
    ensures var r := Emit(before, Columnise.Columnise(items, termWidth, dl));
            && (r.failure == Some(MaxOfEmpty) <==> |items| == 0)
            && (r.failure == Some(ZeroColumns) <==> |items| > 0 && TooWide(items, termWidth, dl))
  {
  }

  /** A layout that succeeds prints the lines before it and then every row of its grid. */
  lemma EmitShowsEveryItem(before: seq<string>, items: seq<Item>, termWidth: nat, dl: string -> nat)
    requires Layout(items, termWidth, dl).Ok?
    ensures var g := Layout(items, termWidth, dl).value;
            && Emit(before, Columnise.Columnise(items, termWidth, dl)) == Run(before + (Lines(g.columns, g.rows) + [""]), None)
            && Shown(g.columns, g.rows) == |items|
  {
    ColumniseShowsEveryItem(items, termWidth, dl);
  }

  /**
   * A directory block that prints its grid shows every name once: after the
   * header come the rows of the names' layout, and the rows hold as many
   * cells as there are names.
   */
  lemma SimpleBlockShowsEveryName(d: Dir, quoters: set<string>, ucsiser: Option<seq<string> -> seq<string>>,
                                  termWidth: nat, dl: string -> nat)
    requires |SimpleNames(d, ucsiser)| > 0
    requires SimpleBlock(d, quoters, ucsiser, termWidth, dl).failure.None?
    ensures var items := SimpleItems(SimpleNames(d, ucsiser), quoters);
            var layout := Layout(items, termWidth, dl);
            && layout.Ok?
            && SimpleBlock(d, quoters, ucsiser, termWidth, dl).out ==
                 [Header(d.path)] + (Lines(layout.value.columns, layout.value.rows) + [""])
            && Shown(layout.value.columns, layout.value.rows) == |SimpleNames(d, ucsiser)|
  {
    var items := SimpleItems(SimpleNames(d, ucsiser), quoters);
    assert Layout(items, termWidth, dl).Ok?;
    EmitShowsEveryItem([Header(d.path)], items, termWidth, dl);
  }

  /**
   * Lines 86-104: the blocks of all directories, in order. The listing
   * fails only when a directory holds a name wider than the terminal, and
   * then with that error.
   */
  function SimpleList(dirs: seq<Dir>, quoters: set<string>, ucsiser: Option<seq<string> -> seq<string>>,
                      termWidth: nat, dl: string -> nat): (r: Run)
    ensures r.failure.None? <==>
              forall i :: 0 <= i < |dirs| ==> SimpleBlock(dirs[i], quoters, ucsiser, termWidth, dl).failure.None?
    ensures r.failure.None? || r.failure == Some(ZeroColumns)
  {
    var blocks := seq(|dirs|, i requires 0 <= i < |dirs| => SimpleBlock(dirs[i], quoters, ucsiser, termWidth, dl));
    assert forall i :: 0 <= i < |dirs| ==> blocks[i] == SimpleBlock(dirs[i], quoters, ucsiser, termWidth, dl);
    var r := Sequence(blocks);
    assert r.failure.None? || r.failure == Some(ZeroColumns) by {
      if r.failure.Some? {
        SequenceStopsAtFirstFailure(blocks);
        var i :| 0 <= i < |blocks| && r.failure == blocks[i].failure &&
                 forall j :: 0 <= j < i ==> blocks[j].failure.None?;
        assert blocks[i] == SimpleBlock(dirs[i], quoters, ucsiser, termWidth, dl);
      }
    }
    r
  }

  /* ---------------------------------------------------------------------- */
  /* linklist (lines 115-182)                                               */
  /* ---------------------------------------------------------------------- */

  /**
   * Lines 135-137: the optional `ucsiser` of `linklist`, which rewrites the
   * names and fills the pseudo-link map; without it the map stays empty.
   */
  function LinkUcsise(names: seq<string>, ucsiser: Option<seq<string> -> (seq<string>, map<string, string>)>)
    : (seq<string>, map<string, string>)
  {
    if ucsiser.Some? then ucsiser.value(names) else (names, map[])
  }

  /**
   * Lines 140-145: each name paired with its pseudo link plus `.pony`, or
   * else with the real path of its file when that file is a symbolic link
   * (`links` maps each link's path to its real path), or else with nothing.
   */
  function MakePairs(path: string, names: seq<string>, pseudo: map<string, string>, links: map<string, string>)
    : (ps: seq<Pair>)
    ensures |ps| == |names|
    ensures forall i :: 0 <= i < |names| ==> ps[i].name == names[i]
    ensures forall i :: 0 <= i < |names| && names[i] in pseudo ==> ps[i].link == Some(pseudo[names[i]] + ".pony")
    ensures forall i :: 0 <= i < |names| && names[i] !in pseudo ==>
              (ps[i].link.Some? <==> path + names[i] + ".pony" in links)
    ensures forall i :: 0 <= i < |names| && names[i] !in pseudo && path + names[i] + ".pony" in links ==>
              ps[i].link == Some(links[path + names[i] + ".pony"])
  {
    if |names| == 0 then []
    else
      var n := names[0];
      var file := path + n + ".pony";
      var link := if n in pseudo then Some(pseudo[n] + ".pony")
                  else if file in links then Some(links[file]) else None;
      [Pair(n, link)] + MakePairs(path, names[1..], pseudo, links)
  }

  /** A name with a pseudo link is listed as an alias of the pseudo link's last path component. */
  lemma PseudoLinkGroupsUnderItsBaseName(path: string, names: seq<string>, pseudo: map<string, string>,
                                         links: map<string, string>, i: nat)
    requires i < |names| && names[i] in pseudo
    ensures var p := MakePairs(path, names, pseudo, links)[i];
            !Unlinked(p) && KeyOf(p) == AfterLast(pseudo[names[i]], '/')
  {
    var target := pseudo[names[i]];
    var p := MakePairs(path, names, pseudo, links)[i];
    assert p.link == Some(target + ".pony");
    assert |target + ".pony"| > 0;
    TargetDropsPonySuffix(target);
  }

  /** Lines 124-145: the pairs `linklist` groups for a directory that has pony files. */
  function LinkPairs(d: Dir, links: map<string, string>,
                     ucsiser: Option<seq<string> -> (seq<string>, map<string, string>)>): seq<Pair>
  {
    var named := LinkUcsise(StripSuffix(d.files, ".pony"), ucsiser);
    MakePairs(d.path, named.0, named.1, links)
  }

  /** A directory with names to group always yields something to lay out. */
  lemma LinkItemsEmptyIff(pairs: seq<Pair>, quoters: set<string>, dl: string -> nat)
    ensures |LinkItems(pairs, quoters, dl)| == 0 <==> |pairs| == 0
  {
    GroupCollectsAliases(pairs);
    var pm := Group(pairs);
    if |pairs| > 0 {
      assert Keyed(pairs, KeyOf(pairs[0]));
      PonyItemsListEveryKey(pm, KeyOf(pairs[0]), quoters, dl);
    } else {
      assert pm.order == [];
    }
  }

  /**
   * One directory of `linklist`: nothing when it has no pony file; else
   * the header, printed before the `ucsiser` runs, and then the grid of
   * labels. Unlike `simplelist`, the emptiness test comes before the
   * `ucsiser`, so a callback that removes every name makes `max` fail on
   * the empty list after the header is out.
   */
  function LinkBlock(d: Dir, links: map<string, string>, quoters: set<string>,
                     ucsiser: Option<seq<string> -> (seq<string>, map<string, string>)>,
                     termWidth: nat, dl: string -> nat): (r: Run)
    ensures |StripSuffix(d.files, ".pony")| == 0 ==> r == Run([], None)
    ensures |StripSuffix(d.files, ".pony")| > 0 ==> |r.out| > 0 && r.out[0] == Header(d.path)
    ensures r.failure.None? || r.failure == Some(MaxOfEmpty) || r.failure == Some(ZeroColumns)
  {
    if |StripSuffix(d.files, ".pony")| == 0 then Run([], None)
    else
      var pairs := LinkPairs(d, links, ucsiser);
      Emit([Header(d.path)], Columnise.Columnise(LinkItems(pairs, quoters, dl), termWidth, dl))
  }

  /**
   * When a `linklist` block fails: `max` meets an empty list exactly when
   * the directory has pony files but the `ucsiser` left no name to group,
   * and the division by zero exactly when some label is wider than the
   * terminal.
   */
  lemma LinkBlockFailures(d: Dir, links: map<string, string>, quoters: set<string>,
                          ucsiser: Option<seq<string> -> (seq<string>, map<string, string>)>,
                          termWidth: nat, dl: string -> nat)
    ensures var r := LinkBlock(d, links, quoters, ucsiser, termWidth, dl);
            && (r.failure == Some(MaxOfEmpty) <==>
                  |StripSuffix(d.files, ".pony")| > 0 && |LinkPairs(d, links, ucsiser)| == 0)
            && (r.failure == Some(ZeroColumns) <==>
                  |StripSuffix(d.files, ".pony")| > 0 && |LinkPairs(d, links, ucsiser)| > 0 &&
                  TooWide(LinkItems(LinkPairs(d, links, ucsiser), quoters, dl), termWidth, dl))
  {
    if |StripSuffix(d.files, ".pony")| > 0 {
      var pairs := LinkPairs(d, links, ucsiser);
      var items := LinkItems(pairs, quoters, dl);
      assert LinkBlock(d, links, quoters, ucsiser, termWidth, dl) ==
             Emit([Header(d.path)], Columnise.Columnise(items, termWidth, dl));
      EmitFailures([Header(d.path)], items, termWidth, dl);
      LinkItemsEmptyIff(pairs, quoters, dl);
    }
  }

  /**
   * A `linklist` block that prints its grid shows every key: after the
   * header come the rows of the layout of the labels, those rows hold as
   * many cells as there are labels, and every pony-map key's label is
   * among them.
   */
  lemma LinkBlockShowsEveryKey(d: Dir, links: map<string, string>, quoters: set<string>,
                               ucsiser: Option<seq<string> -> (seq<string>, map<string, string>)>,
                               termWidth: nat, dl: string -> nat)
    requires |StripSuffix(d.files, ".pony")| > 0
    requires LinkBlock(d, links, quoters, ucsiser, termWidth, dl).failure.None?
    ensures var pairs := LinkPairs(d, links, ucsiser);
            var items := LinkItems(pairs, quoters, dl);
            var layout := Layout(items, termWidth, dl);
            && layout.Ok?
            && LinkBlock(d, links, quoters, ucsiser, termWidth, dl).out ==
                 [Header(d.path)] + (Lines(layout.value.columns, layout.value.rows) + [""])
            && Shown(layout.value.columns, layout.value.rows) == |items|
            && forall k :: k in Group(pairs).aliases ==> KeyItem(Group(pairs), k, quoters, dl) in items
  {
    var pairs := LinkPairs(d, links, ucsiser);
    var items := LinkItems(pairs, quoters, dl);
    assert LinkBlock(d, links, quoters, ucsiser, termWidth, dl) ==
           Emit([Header(d.path)], Columnise.Columnise(items, termWidth, dl));
    assert Layout(items, termWidth, dl).Ok?;
    EmitShowsEveryItem([Header(d.path)], items, termWidth, dl);
    GroupIsValid(pairs);
    forall k | k in Group(pairs).aliases
      ensures KeyItem(Group(pairs), k, quoters, dl) in items
    {
      PonyItemsListEveryKey(Group(pairs), k, quoters, dl);
    }
  }

  /** Lines 119-182: the blocks of all directories, in order, up to the first that fails. */
  function LinkList(dirs: seq<Dir>, links: map<string, string>, quoters: set<string>,
                    ucsiser: Option<seq<string> -> (seq<string>, map<string, string>)>,
                    termWidth: nat, dl: string -> nat): (r: Run)
    ensures r.failure.None? <==>
              forall i :: 0 <= i < |dirs| ==> LinkBlock(dirs[i], links, quoters, ucsiser, termWidth, dl).failure.None?
    ensures r.failure.None? || r.failure == Some(MaxOfEmpty) || r.failure == Some(ZeroColumns)
  {
    var blocks := seq(|dirs|, i requires 0 <= i < |dirs| => LinkBlock(dirs[i], links, quoters, ucsiser, termWidth, dl));
    assert forall i :: 0 <= i < |dirs| ==> blocks[i] == LinkBlock(dirs[i], links, quoters, ucsiser, termWidth, dl);
    var r := Sequence(blocks);
    assert r.failure.None? || r.failure == Some(MaxOfEmpty) || r.failure == Some(ZeroColumns) by {
      if r.failure.Some? {
        SequenceStopsAtFirstFailure(blocks);
        var i :| 0 <= i < |blocks| && r.failure == blocks[i].failure &&
                 forall j :: 0 <= j < i ==> blocks[j].failure.None?;
        assert blocks[i] == LinkBlock(dirs[i], links, quoters, ucsiser, termWidth, dl);
      }
    }
    r
  }

  /* ---------------------------------------------------------------------- */
  /* onelist (lines 193-219)                                                */
  /* ---------------------------------------------------------------------- */

  /** Lines 215-219: each name that differs from the one printed before it, starting from `last`. */
  function SkipRepeats(xs: seq<string>, last: string): (r: seq<string>)
    ensures |r| <= |xs|
    ensures |r| > 0 ==> r[0] != last
    ensures forall i :: 0 <= i < |r| - 1 ==> r[i] != r[i + 1]
  {
    if |xs| == 0 then []
    else if xs[0] == last then SkipRepeats(xs[1..], last)
    else [xs[0]] + SkipRepeats(xs[1..], xs[0])
  }

  /** The name compared with `xs[i]`: the one before it, or `last` for the first. */
  function Previous(xs: seq<string>, last: string, i: nat): string
    requires i < |xs|
  {
    if i == 0 then last else xs[i - 1]
  }

  /**
   * The names that differ from their predecessor, read from the back: the
   * output the loop at lines 215-219 must produce on any input, sorted or
   * not.
   */
  function Changes(xs: seq<string>, last: string): seq<string>
  {
    if |xs| == 0 then []
    else
      var n := |xs| - 1;
      Changes(xs[..n], last) + (if xs[n] != Previous(xs, last, n) then [xs[n]] else [])
  }

  /** Appending one name to the input appends it to the output exactly when it differs from the name before it. */
  lemma {:induction false} SkipRepeatsSnoc(a: seq<string>, x: string, last: string)
    ensures SkipRepeats(a + [x], last) ==
              SkipRepeats(a, last) + (if x != Previous(a + [x], last, |a|) then [x] else [])
  {
    if |a| == 0 {
      assert a + [x] == [x];
      assert SkipRepeats([x], last) == (if x == last then [] else [x] + SkipRepeats([], x));
    } else {
      var next := if a[0] == last then last else a[0];
      assert (a + [x])[0] == a[0];
      assert (a + [x])[1..] == a[1..] + [x];
      SkipRepeatsSnoc(a[1..], x, next);
      assert Previous(a[1..] + [x], next, |a| - 1) == Previous(a + [x], last, |a|);
    }
  }

  /** On any input, the loop prints exactly the names that differ from the one before them. */
  lemma {:induction false} SkipRepeatsIsChanges(xs: seq<string>, last: string)
    ensures SkipRepeats(xs, last) == Changes(xs, last)
  {
    if |xs| > 0 {
      var n := |xs| - 1;
      SkipRepeatsIsChanges(xs[..n], last);
      assert xs == xs[..n] + [xs[n]];
      SkipRepeatsSnoc(xs[..n], xs[n], last);
    }
  }

  /** Only neighbours are compared: `x`, `x`, `y`, `x` prints `x`, `y`, `x`. */
  lemma SkipRepeatsKeepsLaterRepeats()
    ensures SkipRepeats(["x", "x", "y", "x"], "") == ["x", "y", "x"]
  {
    assert ["x", "x", "y", "x"][1..] == ["x", "y", "x"];
    assert ["x", "y", "x"][1..] == ["y", "x"];
    assert ["y", "x"][1..] == ["x"];
  }

  /** A name in front of a strictly ascending list of larger names keeps it strictly ascending. */
  lemma ConsAscending(h: string, rest: seq<string>)
    requires SortedBy(rest, Itself) && NoRepeats(rest)
    requires forall x :: x in rest ==> Le(h, x) && x != h
    ensures SortedBy([h] + rest, Itself) && NoRepeats([h] + rest)
  {
    var r := [h] + rest;
    forall i, j | 0 <= i < j < |r|
      ensures Le(r[i], r[j]) && r[i] != r[j]
    {
      assert r[j] == rest[j - 1];
      if i > 0 {
        assert r[i] == rest[i - 1];
      }
    }
  }

  /**
   * On sorted input that starts no lower than `last`, skipping repeats of
   * the previous name leaves a strictly ascending list of every name except
   * `last` itself.
   */
  lemma {:induction false} SkipRepeatsOfSorted(xs: seq<string>, last: string)
    requires SortedBy(xs, Itself)
    requires forall i :: 0 <= i < |xs| ==> Le(last, xs[i])
    ensures SortedBy(SkipRepeats(xs, last), Itself)
    ensures NoRepeats(SkipRepeats(xs, last))
    ensures forall x :: x in SkipRepeats(xs, last) <==> x in xs && x != last
  {
    if |xs| > 0 {
      var tail := xs[1..];
      if xs[0] == last {
        SkipRepeatsOfSorted(tail, last);
        assert xs == [xs[0]] + tail;
      } else {
        SkipRepeatsOfSorted(tail, xs[0]);
        SkipRepeatsOfSortedStep(xs, last);
        SkipRepeatsOfSortedMembers(xs, last);
      }
    }
  }

  /** The step of `SkipRepeatsOfSorted` that prints `xs[0]`: the order, given the result for the rest. */
  lemma SkipRepeatsOfSortedStep(xs: seq<string>, last: string)
    requires |xs| > 0 && xs[0] != last
    requires SortedBy(xs, Itself)
    requires SortedBy(SkipRepeats(xs[1..], xs[0]), Itself)
    requires NoRepeats(SkipRepeats(xs[1..], xs[0]))
    requires forall x :: x in SkipRepeats(xs[1..], xs[0]) <==> x in xs[1..] && x != xs[0]
    ensures SortedBy(SkipRepeats(xs, last), Itself)
    ensures NoRepeats(SkipRepeats(xs, last))
  {
    var rest := SkipRepeats(xs[1..], xs[0]);
    assert SkipRepeats(xs, last) == [xs[0]] + rest;
    forall x | x in rest
      ensures Le(xs[0], x) && x != xs[0]
    {
    }
    ConsAscending(xs[0], rest);
  }

  /** The same step: the members, given those of the rest. */
  lemma SkipRepeatsOfSortedMembers(xs: seq<string>, last: string)
    requires |xs| > 0 && xs[0] != last
    requires SortedBy(xs, Itself)
    requires forall i :: 0 <= i < |xs| ==> Le(last, xs[i])
    requires forall x :: x in SkipRepeats(xs[1..], xs[0]) <==> x in xs[1..] && x != xs[0]
    ensures forall x :: x in SkipRepeats(xs, last) <==> x in xs && x != last
  {
    var tail := xs[1..];
    var r := SkipRepeats(xs, last);
    assert r == [xs[0]] + SkipRepeats(tail, xs[0]);
    forall x | x in xs && x != last
      ensures x in r
    {
      if x != xs[0] {
        assert x in tail;
      }
    }
    forall x | x in r
      ensures x in xs && x != last
    {
      if x != xs[0] {
        var i :| 0 <= i < |tail| && tail[i] == x;
        assert Le(last, xs[i + 1]);
        LeTransitive(last, xs[0], x);
        if x == last {
          LeAntisymmetric(last, xs[0]);
        }
      }
    }
  }

  /** Lines 194-211: the names of all pony files of the standard and the extra directories. */
  function OneNames(standard: Option<seq<seq<string>>>, extra: Option<seq<seq<string>>>,
                    ucsiser: Option<seq<string> -> seq<string>>): seq<string>
  {
    var files := (if standard.Some? then Concat(standard.value) else []) +
                 (if extra.Some? then Concat(extra.value) else []);
    Ucsise(StripSuffix(files, ".pony"), ucsiser)
  }

  /**
   * Lines 193-219: the flat list, one name per line. It is strictly
   * ascending and holds every distinct name except the empty one, which the
   * skip test mistakes for the name printed before the first.
   */
  function OneList(standard: Option<seq<seq<string>>>, extra: Option<seq<seq<string>>>,
                   ucsiser: Option<seq<string> -> seq<string>>): (out: seq<string>)
    ensures SortedBy(out, Itself) && NoRepeats(out)
    ensures forall x :: x in out <==> x in OneNames(standard, extra, ucsiser) && x != ""
  {
    var sorted := SortBy(OneNames(standard, extra, ucsiser), Itself);
    forall i | 0 <= i < |sorted|
      ensures Le("", sorted[i])
    {
      EmptyIsLeast(sorted[i]);
    }
    SkipRepeatsOfSorted(sorted, "");
    forall x
      ensures x in sorted <==> x in OneNames(standard, extra, ucsiser)
    {
      assert x in sorted <==> x in multiset(sorted);
    }
    SkipRepeats(sorted, "")
  }

  /* ---------------------------------------------------------------------- */
  /* balloonlist (lines 229-250)                                            */
  /* ---------------------------------------------------------------------- */

  /**
   * Lines 234-247: the balloon set, each name once, filled in listing order
   * from the files of all balloon directories; lines 238-241 take the
   * `.think` balloons for `ponythink` and the `.say` ones otherwise.
   */
  function BalloonNames(dirs: seq<seq<string>>, isthink: bool): (r: seq<string>)
    ensures NoRepeats(r)
    ensures forall x :: x in r <==> x + (if isthink then ".think" else ".say") in Concat(dirs)
  {
    var suffix := if isthink then ".think" else ".say";
    var stripped := StripSuffix(Concat(dirs), suffix);
    forall x
      ensures x in stripped <==> x + suffix in Concat(dirs)
    {
      StripSuffixFinds(Concat(dirs), suffix, x);
    }
    Distinct(stripped)
  }

  /** Line 250: each balloon name as both its plain and its formatted text. */
  function BalloonItems(names: seq<string>): (its: seq<Item>)
    ensures |its| == |names|
    ensures forall i :: 0 <= i < |names| ==> its[i] == Item(names[i], names[i])
  {
    if |names| == 0 then [] else [Item(names[0], names[0])] + BalloonItems(names[1..])
  }

  /**
   * Lines 229-250 with the directories taken from the `balloondirs`
   * parameter: the grid of all balloon names. It fails when there is no
   * balloon at all, because `max` meets an empty list, or when a name is
   * wider than the terminal.
   */
  function BalloonList(dirs: seq<seq<string>>, isthink: bool, termWidth: nat, dl: string -> nat): (r: Run)
    ensures r.failure == Some(MaxOfEmpty) <==> |BalloonNames(dirs, isthink)| == 0
    ensures r.failure == Some(ZeroColumns) <==>
              |BalloonNames(dirs, isthink)| > 0 && TooWide(BalloonItems(BalloonNames(dirs, isthink)), termWidth, dl)
    ensures r.failure.None? || r.failure == Some(MaxOfEmpty) || r.failure == Some(ZeroColumns)
    ensures r.failure.Some? ==> r.out == []
  {
    Emit([], Columnise.Columnise(BalloonItems(BalloonNames(dirs, isthink)), termWidth, dl))
  }

  /**
   * A balloon listing that does not fail prints the rows of the layout of
   * the balloon names and the blank line after them, and the rows hold as
   * many cells as there are balloon names.
   */
  lemma BalloonListShowsEveryName(dirs: seq<seq<string>>, isthink: bool, termWidth: nat, dl: string -> nat)
    requires BalloonList(dirs, isthink, termWidth, dl).failure.None?
    ensures var layout := Layout(BalloonItems(BalloonNames(dirs, isthink)), termWidth, dl);
            && layout.Ok?
            && BalloonList(dirs, isthink, termWidth, dl).out == Lines(layout.value.columns, layout.value.rows) + [""]
            && Shown(layout.value.columns, layout.value.rows) == |BalloonNames(dirs, isthink)|
  {
    var items := BalloonItems(BalloonNames(dirs, isthink));
    assert Layout(items, termWidth, dl).Ok?;
    EmitShowsEveryItem([], items, termWidth, dl);
  }

  /** Every item of a name in `na` is an item of `nb` when `nb` holds every name of `na`. */
  lemma BalloonItemsCovered(na: seq<string>, nb: seq<string>)
    requires forall x :: x in na ==> x in nb
    ensures forall it :: it in BalloonItems(na) ==> it in BalloonItems(nb)
  {
    var ia, ib := BalloonItems(na), BalloonItems(nb);
    forall it | it in ia
      ensures it in ib
    {
      var i :| 0 <= i < |ia| && ia[i] == it;
      assert na[i] in nb;
      var j :| 0 <= j < |nb| && nb[j] == na[i];
      assert ib[j] == it;
    }
  }

  /** Two repeat-free name lists with the same members give permuted items, each identified by its plain name. */
  lemma BalloonItemsPermuted(na: seq<string>, nb: seq<string>)
    requires NoRepeats(na) && NoRepeats(nb)
    requires forall x :: x in na <==> x in nb
    ensures multiset(BalloonItems(na)) == multiset(BalloonItems(nb))
    ensures KeyIdentifies(BalloonItems(na), PlainOf)
  {
    var ia, ib := BalloonItems(na), BalloonItems(nb);
    BalloonItemsCovered(na, nb);
    BalloonItemsCovered(nb, na);
    SameMembersArePermutations(ia, ib);
  }

  /**
   * The balloon grid depends only on which balloon files exist, not on the
   * order of the directories, the order of their listings, or how many
   * directories hold the same balloon.
   */
  lemma BalloonListIgnoresOrder(a: seq<seq<string>>, b: seq<seq<string>>, isthink: bool,
                                termWidth: nat, dl: string -> nat)
    requires forall f :: f in Concat(a) <==> f in Concat(b)
    ensures BalloonList(a, isthink, termWidth, dl) == BalloonList(b, isthink, termWidth, dl)
  {
    var na, nb := BalloonNames(a, isthink), BalloonNames(b, isthink);
    assert forall x :: x in na <==> x in nb;
    BalloonItemsPermuted(na, nb);
    ColumniseIgnoresOrder(BalloonItems(na), BalloonItems(nb), termWidth, dl);
  }

  /**
   * `balloonlist` as written: the loop at line 235 reads `self.balloondirs`,
   * but a static method has no `self`, so the call raises a `NameError`
   * before anything is printed, whatever the arguments.
   */
  function BalloonListAsWritten(dirs: seq<seq<string>>, isthink: bool, termWidth: nat, dl: string -> nat)
    : (r: Run)
    ensures r.out == [] && r.failure == Some(UnboundSelf)
  {
    Run([], Some(UnboundSelf))
  }

  /**
   * The discrepancy: with one `.say` balloon and an 80-column terminal, the
   * intended listing prints its grid, while the listing as written fails.
   */
  lemma BalloonListAsWrittenFails()
    ensures var dl := (s: string) => |s|;
            && BalloonList([["cowsay.say"]], false, 80, dl).failure.None?
            && BalloonListAsWritten([["cowsay.say"]], false, 80, dl).failure == Some(UnboundSelf)
  {
    var dl := (s: string) => |s|;
    var dirs := [["cowsay.say"]];
    assert Concat(dirs) == ["cowsay.say"];
    assert "cowsay" + ".say" == "cowsay.say";
    var names := BalloonNames(dirs, false);
    assert "cowsay" in names;
    var items := BalloonItems(names);
    forall i | 0 <= i < |items|
      ensures dl(items[i].plain) <= 80
    {
      var x := names[i];
      assert x + ".say" == "cowsay.say";
      assert |x| == 6;
    }
    assert !TooWide(items, 80, dl);
  }
}

=== FILE: results.dfy ===
/** Failure-carrying values used throughout the listing model. */
module Results {

  /** Python's `None`-or-value. */
  datatype Option<+T> = None | Some(value: T)

  /** A computation that either yields a value or raises an exception. */
  datatype Result<+T, +E> = Ok(value: T) | Err(error: E)

  /** The exceptions the listing functions can raise. */
  datatype ListError =
    | MaxOfEmpty    // `max([])` on an empty listing raises ValueError
    | ZeroColumns   // no column fits the terminal: `x // 0` raises ZeroDivisionError
    | UnboundSelf   // `self` read inside a static method raises NameError
}

=== FILE: sorting.dfy ===
/**
 * Python's `list.sort(key=...)` on string keys: a stable sort in ascending
 * code-point order, written as an insertion sort.
 */
module Sorting {
  import opened Strings

  /** Every element's key is `<=` the keys of all elements after it. */
  predicate SortedBy<T>(xs: seq<T>, key: T -> string)
  {
    forall i, j :: 0 <= i < j < |xs| ==> Le(key(xs[i]), key(xs[j]))
  }

  /** Equal keys only on equal elements: the key identifies the element. */
  predicate KeyIdentifies<T(==)>(xs: seq<T>, key: T -> string)
  {
    forall i, j :: 0 <= i < |xs| && 0 <= j < |xs| && key(xs[i]) == key(xs[j]) ==> xs[i] == xs[j]
  }

  /** Places `x` in front of the first element whose key is not below its own. */
  function Insert<T>(x: T, ys: seq<T>, key: T -> string): seq<T>
  {
    if |ys| == 0 || Le(key(x), key(ys[0])) then [x] + ys
    else [ys[0]] + Insert(x, ys[1..], key)
  }

  lemma {:induction false} InsertKeepsOrder<T>(x: T, ys: seq<T>, key: T -> string)
    requires SortedBy(ys, key)
    ensures SortedBy(Insert(x, ys, key), key)
    ensures multiset(Insert(x, ys, key)) == multiset(ys) + multiset{x}
  {
    if |ys| == 0 {
    } else if Le(key(x), key(ys[0])) {
      forall j | 0 <= j < |ys|
        ensures Le(key(x), key(ys[j]))
      {
        if j > 0 {
          LeTransitive(key(x), key(ys[0]), key(ys[j]));
        }
      }
    } else {
      LeTotal(key(x), key(ys[0]));
      InsertKeepsOrder(x, ys[1..], key);
      var r := Insert(x, ys[1..], key);
      assert multiset(r) == multiset(ys[1..]) + multiset{x};
      forall j | 0 <= j < |r|
        ensures Le(key(ys[0]), key(r[j]))
      {
        assert r[j] in multiset(r);
        assert r[j] == x || r[j] in multiset(ys[1..]);
      }
      assert ys == [ys[0]] + ys[1..];
    }
  }

  /** `xs.sort(key=key)`, stable: elements with equal keys keep their order. */
  function SortBy<T>(xs: seq<T>, key: T -> string): (r: seq<T>)
    ensures SortedBy(r, key)
    ensures multiset(r) == multiset(xs)
  {
    if |xs| == 0 then []
    else
      var rest := SortBy(xs[1..], key);
      InsertKeepsOrder(xs[0], rest, key);
      assert xs == [xs[0]] + xs[1..];
      Insert(xs[0], rest, key)
  }

  /** The elements of `xs` whose key is `k`, in their order in `xs`. */
  function WithKey<T>(xs: seq<T>, key: T -> string, k: string): seq<T>
  {
    if |xs| == 0 then [] else (if key(xs[0]) == k then [xs[0]] else []) + WithKey(xs[1..], key, k)
  }

  /**
   * `Insert` places `x` ahead of every element with the same key and passes
   * only elements with smaller keys, so the elements of any one key keep
   * their order, with `x` first among its equals.
   */
  lemma {:induction false} InsertKeepsTies<T>(x: T, ys: seq<T>, key: T -> string, k: string)
    ensures WithKey(Insert(x, ys, key), key, k) == (if key(x) == k then [x] else []) + WithKey(ys, key, k)
  {
    if |ys| == 0 || Le(key(x), key(ys[0])) {
      var r := [x] + ys;
      assert Insert(x, ys, key) == r;
      assert r[0] == x && r[1..] == ys;
    } else {
      var y, rest := ys[0], Insert(x, ys[1..], key);
      assert key(y) != key(x) by {
        LeReflexive(key(x));
      }
      var r := [y] + rest;
      assert Insert(x, ys, key) == r;
      assert r[0] == y && r[1..] == rest;
      InsertKeepsTies(x, ys[1..], key, k);
      assert WithKey(ys, key, k) == (if key(y) == k then [y] else []) + WithKey(ys[1..], key, k);
    }
  }

  /** `list.sort` is stable: the elements with any one key come out in the order they went in. */
  lemma {:induction false} SortByIsStable<T>(xs: seq<T>, key: T -> string, k: string)
    ensures WithKey(SortBy(xs, key), key, k) == WithKey(xs, key, k)
  {
    if |xs| > 0 {
      SortByIsStable(xs[1..], key, k);
      InsertKeepsTies(xs[0], SortBy(xs[1..], key), key, k);
    }
  }

  /** The identity key, for sorting plain strings with `list.sort()`. */
  function Itself(s: string): string { s }

  /**
   * Two sorted arrangements of the same elements are the same list when the
   * key identifies the element: the result of sorting does not depend on the
   * order the input came in.
   */
  lemma {:induction false} SortedIsUnique<T>(a: seq<T>, b: seq<T>, key: T -> string)
    requires SortedBy(a, key) && SortedBy(b, key)
    requires multiset(a) == multiset(b)
    requires KeyIdentifies(a, key)
    ensures a == b
  {
    assert |a| == |multiset(a)| == |multiset(b)| == |b|;
    if |a| > 0 {
      SortedHeadsAgree(a, b, key);
      TailSorted(a, key);
      TailSorted(b, key);
      TailIdentifies(a, key);
      TailMultiset(a);
      TailMultiset(b);
      assert multiset(a[1..]) == multiset(b[1..]);
      SortedIsUnique(a[1..], b[1..], key);
      forall i | 0 < i < |a|
        ensures a[i] == b[i]
      {
        assert a[i] == a[1..][i - 1] && b[i] == b[1..][i - 1];
      }
    }
  }

  /** Of two sorted permutations, neither head can be smaller than the other. */
  lemma SortedHeadsAgree<T>(a: seq<T>, b: seq<T>, key: T -> string)
    requires SortedBy(a, key) && SortedBy(b, key)
    requires multiset(a) == multiset(b) && |a| > 0
    requires KeyIdentifies(a, key)
    ensures a[0] == b[0]
  {
    assert b[0] in multiset(a);
    var i :| 0 <= i < |a| && a[i] == b[0];
    assert a[0] in multiset(b);
    var j :| 0 <= j < |b| && b[j] == a[0];
    LeReflexive(key(a[0]));
    LeReflexive(key(b[0]));
    assert Le(key(a[0]), key(a[i]));
    assert Le(key(b[0]), key(b[j]));
    LeAntisymmetric(key(a[0]), key(a[i]));
  }

  lemma TailSorted<T>(a: seq<T>, key: T -> string)
    requires SortedBy(a, key) && |a| > 0
    ensures SortedBy(a[1..], key)
  {
    var t := a[1..];
    forall i, j | 0 <= i < j < |t|
      ensures Le(key(t[i]), key(t[j]))
    {
      assert t[i] == a[i + 1] && t[j] == a[j + 1];
    }
  }

  lemma TailIdentifies<T>(a: seq<T>, key: T -> string)
    requires KeyIdentifies(a, key) && |a| > 0
    ensures KeyIdentifies(a[1..], key)
  {
    var t := a[1..];
    forall i, j | 0 <= i < |t| && 0 <= j < |t| && key(t[i]) == key(t[j])
      ensures t[i] == t[j]
    {
      assert t[i] == a[i + 1] && t[j] == a[j + 1];
    }
  }

  lemma TailMultiset<T>(a: seq<T>)
    requires |a| > 0
    ensures multiset(a[1..]) == multiset(a) - multiset{a[0]}
  {
    assert a == [a[0]] + a[1..];
  }

  /** Sorting two orderings of the same elements gives one result. */
  lemma SortIgnoresInputOrder<T>(xs: seq<T>, ys: seq<T>, key: T -> string)
    requires multiset(xs) == multiset(ys)
    requires KeyIdentifies(xs, key)
    ensures SortBy(xs, key) == SortBy(ys, key)
  {
    var a, b := SortBy(xs, key), SortBy(ys, key);
    forall i, j | 0 <= i < |a| && 0 <= j < |a| && key(a[i]) == key(a[j])
      ensures a[i] == a[j]
    {
      assert a[i] in multiset(xs) && a[j] in multiset(xs);
      var p :| 0 <= p < |xs| && xs[p] == a[i];
      var q :| 0 <= q < |xs| && xs[q] == a[j];
    }
    SortedIsUnique(a, b, key);
  }
}

=== FILE: strings.dfy ===
/**
 * Python string and list primitives the listing code relies on: ordering of
 * `str`, negative slices, `endswith`, `rindex`, `replace` and `join`.
 */
module Strings {

  /* ---------------------------------------------------------------------- */
  /* Ordering                                                               */
  /* ---------------------------------------------------------------------- */

  /** Python's `a <= b` on `str`: lexicographic comparison by code point. */
  predicate Le(a: string, b: string)
  {
    |a| == 0 || (|b| > 0 && (a[0] < b[0] || (a[0] == b[0] && Le(a[1..], b[1..]))))
  }

  lemma {:induction false} LeReflexive(a: string)
    ensures Le(a, a)
  {
    if |a| > 0 {
      LeReflexive(a[1..]);
    }
  }

  lemma {:induction false} LeTotal(a: string, b: string)
    ensures Le(a, b) || Le(b, a)
  {
    if |a| > 0 && |b| > 0 && a[0] == b[0] {
      LeTotal(a[1..], b[1..]);
    }
  }

  lemma {:induction false} LeTransitive(a: string, b: string, c: string)
    requires Le(a, b) && Le(b, c)
    ensures Le(a, c)
  {
    if |a| > 0 && a[0] == b[0] && b[0] == c[0] {
      LeTransitive(a[1..], b[1..], c[1..]);
    }
  }

  lemma {:induction false} LeAntisymmetric(a: string, b: string)
    requires Le(a, b) && Le(b, a)
    ensures a == b
  {
    if |a| > 0 {
      LeAntisymmetric(a[1..], b[1..]);
      assert a == [a[0]] + a[1..] && b == [b[0]] + b[1..];
    }
  }

  /** The empty string sorts before every string. */
  lemma EmptyIsLeast(a: string)
    ensures Le("", a)
  {
  }

  /* ---------------------------------------------------------------------- */
  /* Negative slices                                                        */
  /* ---------------------------------------------------------------------- */

  function Min(a: int, b: int): int { if a <= b then a else b }

  function Max(a: int, b: int): int { if a <= b then b else a }

  /**
   * Python's `xs[-d:]`: the last `d` elements, or all of `xs` when it is
   * shorter. Since `-0 == 0`, `xs[-0:]` is the whole of `xs`.
   */
  function LastN<T>(xs: seq<T>, d: nat): (r: seq<T>)
    ensures |r| == (if d == 0 then |xs| else Min(d, |xs|))
    ensures r == xs[|xs| - |r|..]
  {
    if d == 0 || d >= |xs| then xs else xs[|xs| - d..]
  }

  /**
   * Python's `xs[:-d]`: everything but the last `d` elements, empty when
   * `xs` is shorter. Since `-0 == 0`, `xs[:-0]` is empty.
   */
  function ButLastN<T>(xs: seq<T>, d: nat): (r: seq<T>)
    ensures |r| == (if d == 0 then 0 else Max(0, |xs| - d))
    ensures r == xs[..|r|]
  {
    if d == 0 || d >= |xs| then [] else xs[..|xs| - d]
  }

  /** Cutting `xs` with the same `d` into `xs[:-d]` and `xs[-d:]` loses and duplicates nothing, for every `d`. */
  lemma SplitAtNegative<T>(xs: seq<T>, d: nat)
    ensures ButLastN(xs, d) + LastN(xs, d) == xs
  {
  }

  /* ---------------------------------------------------------------------- */
  /* Searching and rewriting                                                */
  /* ---------------------------------------------------------------------- */

  /** Python's `s.endswith(suffix)`. */
  predicate EndsWith(s: string, suffix: string)
  {
    |suffix| <= |s| && s[|s| - |suffix|..] == suffix
  }

  /**
   * `s[s.rindex(sep) + 1:] if sep in s else s`: the text after the last
   * `sep`, that is, the longest suffix of `s` free of `sep`.
   */
  function AfterLast(s: string, sep: char): (r: string)
    ensures sep !in r
    ensures |r| <= |s| && r == s[|s| - |r|..]
    ensures |r| == |s| || s[|s| - |r| - 1] == sep
  {
    if |s| == 0 then s
    else if s[|s| - 1] == sep then []
    else
      var r := AfterLast(s[..|s| - 1], sep) + [s[|s| - 1]];
      assert s == s[..|s| - 1] + [s[|s| - 1]];
      r
  }

  /** `AfterLast` leaves `s` alone exactly when `sep` does not occur in it. */
  lemma AfterLastKeepsIff(s: string, sep: char)
    ensures AfterLast(s, sep) == s <==> sep !in s
  {
  }

  /**
   * Python's `s.replace(token, '')`: scans left to right and deletes every
   * non-overlapping occurrence of `token`.
   */
  function RemoveAll(s: string, token: string): (r: string)
    requires |token| > 0
    decreases |s|
  {
    if |s| == 0 then []
    else if |token| <= |s| && s[..|token|] == token then RemoveAll(s[|token|..], token)
    else [s[0]] + RemoveAll(s[1..], token)
  }

  /** Text without the token's first character passes through `replace` untouched. */
  lemma {:induction false} RemoveAllSkipsClean(x: string, rest: string, token: string)
    requires |token| > 0 && token[0] !in x
    ensures RemoveAll(x + rest, token) == x + RemoveAll(rest, token)
    decreases |x|
  {
    if |x| == 0 {
      assert x + rest == rest;
    } else {
      assert (x + rest)[0] == x[0] != token[0];
      assert (x + rest)[1..] == x[1..] + rest;
      RemoveAllSkipsClean(x[1..], rest, token);
      assert x == [x[0]] + x[1..];
    }
  }

  /** An occurrence of the token at the front is deleted. */
  lemma RemoveAllDropsToken(rest: string, token: string)
    requires |token| > 0
    ensures RemoveAll(token + rest, token) == RemoveAll(rest, token)
  {
    assert (token + rest)[..|token|] == token;
    assert (token + rest)[|token|..] == rest;
  }

  /**
   * A different marker `t` that shares the token's escape character only at
   * its start, and differs from the token at position `k`, is kept.
   */
  lemma RemoveAllKeepsOther(t: string, rest: string, token: string, k: nat)
    requires |token| > 0 && |t| > 0 && token[0] !in t[1..]
    requires k < |t| && k < |token| && t[k] != token[k]
    ensures RemoveAll(t + rest, token) == t + RemoveAll(rest, token)
  {
    var s := t + rest;
    if |token| <= |s| {
      assert s[..|token|][k] == t[k];
    }
    assert RemoveAll(s, token) == [s[0]] + RemoveAll(s[1..], token);
    assert s[1..] == t[1..] + rest;
    RemoveAllSkipsClean(t[1..], rest, token);
    var r := RemoveAll(rest, token);
    assert RemoveAll(s, token) == [t[0]] + (t[1..] + r);
    assert [t[0]] + (t[1..] + r) == ([t[0]] + t[1..]) + r;
    assert [t[0]] + t[1..] == t;
  }

  /* ---------------------------------------------------------------------- */
  /* Building strings                                                       */
  /* ---------------------------------------------------------------------- */

  /** Python's `' ' * k`, which is empty for `k <= 0`. */
  function Spaces(k: int): (r: string)
    ensures |r| == Max(0, k)
    ensures forall i :: 0 <= i < |r| ==> r[i] == ' '
  {
    if k <= 0 then [] else seq(k, _ => ' ')
  }

  /** Python's `sep.join(xs)`. */
  function Join(xs: seq<string>, sep: string): string
  {
    if |xs| == 0 then []
    else if |xs| == 1 then xs[0]
    else xs[0] + sep + Join(xs[1..], sep)
  }

  /** Python's `''.join(xs)` for strings and `sum(xs, [])` for lists. */
  function Concat<T>(xss: seq<seq<T>>): seq<T>
  {
    if |xss| == 0 then [] else xss[0] + Concat(xss[1..])
  }

  lemma {:induction false} ConcatAppend<T>(a: seq<seq<T>>, b: seq<seq<T>>)
    ensures Concat(a + b) == Concat(a) + Concat(b)
  {
    if |a| == 0 {
      assert a + b == b;
    } else {
      assert (a + b)[1..] == a[1..] + b;
      ConcatAppend(a[1..], b);
    }
  }

  /** The total length of a list of lists. */
  function TotalLength<T>(xss: seq<seq<T>>): nat
  {
    if |xss| == 0 then 0 else |xss[0]| + TotalLength(xss[1..])
  }

  lemma {:induction false} ConcatLength<T>(xss: seq<seq<T>>)
    ensures |Concat(xss)| == TotalLength(xss)
  {
    if |xss| > 0 {
      ConcatLength(xss[1..]);
    }
  }

  /* ---------------------------------------------------------------------- */
  /* Insertion-ordered collections                                          */
  /* ---------------------------------------------------------------------- */

  /** No element occurs twice. */
  predicate NoRepeats<T(==)>(xs: seq<T>)
  {
    forall i, j :: 0 <= i < j < |xs| ==> xs[i] != xs[j]
  }

  /**
   * The keys of a Python `dict` filled from `xs` in order: each element
   * once, at the place of its first occurrence. A `set` filled the same
   * way holds the same members; its iteration order is taken to be this one.
   */
  function Distinct<T(==)>(xs: seq<T>): (r: seq<T>)
    ensures NoRepeats(r)
    ensures forall i :: 0 <= i < |r| ==> r[i] in xs
    ensures forall i :: 0 <= i < |xs| ==> xs[i] in r
  {
    if |xs| == 0 then []
    else
      var front := Distinct(xs[..|xs| - 1]);
      assert xs == xs[..|xs| - 1] + [xs[|xs| - 1]];
      if xs[|xs| - 1] in front then front else front + [xs[|xs| - 1]]
  }

  /** The index of the first occurrence of `x` in `xs`. */
  function FirstAt<T(==)>(xs: seq<T>, x: T): (k: nat)
    requires x in xs
    ensures k < |xs| && xs[k] == x && x !in xs[..k]
  {
    if xs[0] == x then 0
    else
      var k := 1 + FirstAt(xs[1..], x);
      assert xs[..k] == [xs[0]] + xs[1..][..k - 1];
      k
  }

  /** The first occurrence is the one with no earlier copy. */
  lemma FirstAtUnique<T>(xs: seq<T>, x: T, k: nat)
    requires k < |xs| && xs[k] == x && x !in xs[..k]
    ensures FirstAt(xs, x) == k
  {
    var a := FirstAt(xs, x);
    forall i | 0 <= i < a
      ensures xs[i] != x
    {
      assert xs[..a][i] == xs[i];
    }
    forall i | 0 <= i < k
      ensures xs[i] != x
    {
      assert xs[..k][i] == xs[i];
    }
  }

  /** An element already in a prefix first occurs where it first occurs in that prefix. */
  lemma FirstAtPrefix<T>(xs: seq<T>, n: nat, x: T)
    requires n <= |xs| && x in xs[..n]
    ensures FirstAt(xs, x) == FirstAt(xs[..n], x)
  {
    var b := FirstAt(xs[..n], x);
    assert xs[..n][b] == xs[b];
    assert xs[..n][..b] == xs[..b];
    FirstAtUnique(xs, x, b);
  }

  /**
   * The elements of `Distinct(xs)` come in the order of their first
   * occurrences in `xs`, as the keys of a Python `dict` do.
   */
  lemma {:induction false} DistinctKeepsFirstOrder<T>(xs: seq<T>)
    ensures forall i, j :: 0 <= i < j < |Distinct(xs)| ==>
              FirstAt(xs, Distinct(xs)[i]) < FirstAt(xs, Distinct(xs)[j])
  {
    if |xs| > 0 {
      var n := |xs| - 1;
      var front := Distinct(xs[..n]);
      var r := Distinct(xs);
      DistinctKeepsFirstOrder(xs[..n]);
      if xs[n] !in front {
        assert r == front + [xs[n]];
        assert xs[n] !in xs[..n];
        FirstAtUnique(xs, xs[n], n);
      } else {
        assert r == front;
      }
      forall i, j | 0 <= i < j < |r|
        ensures FirstAt(xs, r[i]) < FirstAt(xs, r[j])
      {
        assert r[i] == front[i];
        FirstAtPrefix(xs, n, front[i]);
        if j < |front| {
          assert r[j] == front[j];
          FirstAtPrefix(xs, n, front[j]);
        }
      }
    }
  }

  /** Two repeat-free lists with the same members are permutations of each other. */
  lemma SameMembersArePermutations<T>(a: seq<T>, b: seq<T>)
    requires NoRepeats(a) && NoRepeats(b)
    requires forall x :: x in a <==> x in b
    ensures multiset(a) == multiset(b)
  {
    forall x
      ensures multiset(a)[x] == multiset(b)[x]
    {
      NoRepeatsCountsOnce(a, x);
      NoRepeatsCountsOnce(b, x);
    }
  }

  lemma {:induction false} NoRepeatsCountsOnce<T>(xs: seq<T>, x: T)
    requires NoRepeats(xs)
    ensures multiset(xs)[x] == if x in xs then 1 else 0
  {
    if |xs| > 0 {
      NoRepeatsCountsOnce(xs[1..], x);
      assert xs == [xs[0]] + xs[1..];
      assert xs[0] !in xs[1..];
    }
  }
}
